=== FILE: README.md ===
# stitch configuration resolution, in Dafny

stitch is a Fabric-based tool that stages and deploys Django sites. A YAML
file `staging.yml` describes hosts, host defaults, sites, site defaults and
roles. Every operation of the tool goes through one layer of pure dictionary
computations, and this project models that layer and proves its properties:

- the recursive, right-biased merge `update(d, u)` (`Merge`);
- host resolution: `get_host_shortname`, `get_host_dict`, role expansion and
  `is_local` (`Hosts`);
- site resolution: the four-layer `get_site_settings`, `site_on_host` in
  both fabfile revisions, and `get_sites` (`Sites`);
- the per-site dispatcher `process_sites` of `stitch/fabfile.py` (`Dispatch`);
- the git and virtualenv command strings of the root `fabfile.py`
  (`Commands`);
- the derived paths and the provisioning decision of `setup_virtualenv`,
  `pip_install`, `generate_confs`/`generate_settings` and the root
  fabfile's `set_*` operations (`Targets`);
- the marker files of a settings directory (`Markers`);
- the older `stage.py` script (`Stage`).

Loaded YAML values are the datatype `PyValues.Value` (None, booleans,
integers, strings, lists and string-keyed mappings). The configuration is
`Config.Conf`. Python 2 iterates a dict in an order the language leaves
unspecified, so each mapping that the code iterates carries its iteration
order as an explicit sequence. The exceptions the code raises are
`PyValues.Error` values inside a `Result`. `KeyError` is a missing key.
`TypeError` also stands for AttributeError, as in `None.get`. `Unformatted`
stands for `'%s' %` applied to a list or mapping. The current host
(`env.host`) and site (`env.site`) are explicit parameters. Whether a path
exists on disk is also a parameter; the `is_local` check the root fabfile
makes before probing it is modelled.

`update` raises in Python when `u[k]` is a non-empty mapping and `d[k]` is
not one: AttributeError from `.get` on the non-mapping, or TypeError from
the item assignment. The model makes this an explicit `Err(TypeError)`, not
a precondition. `Merge.UpdateFailsIffClash` characterises exactly when it
happens.

Where the code and the tool's own description differ, the model follows the
code:
- `based_on` is followed one level only, so a chain or a cycle of parents
  needs no detection.
- A site that resolves without `on_hosts` makes `host in None` raise
  TypeError. It is not simply "not on the host".
- `update` recurses whenever the override value is a mapping, whatever the
  base value is.

## Model

| member | source | states |
|---|---|---|
| PyValues.JoinSplits | stitch/fabfile.py:162 | `os.path.join(dir, name)` of a directory without a trailing '/' and a plain name splits back into that directory and that name |
| Merge.Update | stitch/helpers.py:4-16 | merging an empty override gives the base back; a non-mapping base with a non-empty override raises; the result's keys are the base's plus the override's; a non-mapping override value replaces the base's wholesale (lists are not concatenated); a base key the override lacks keeps its value |
| Merge.UpdateRecurses | stitch/helpers.py:11-13 | a mapping override value is merged into the base's value under that key, or into a fresh empty mapping when the key is missing |
| Merge.UpdateLoop | fabfile.py:51-63 | the root fabfile's copy, written as the key-by-key loop, computes exactly the same merge as the helpers copy |
| Merge.ClashFails | stitch/helpers.py:10-13 | if some path of the override leads to a non-empty mapping where the base holds a non-mapping, the merge raises |
| Merge.FailureClashes | stitch/helpers.py:10-13 | a merge that raises has such a clashing path |
| Merge.UpdateFailsIffClash | stitch/helpers.py:4-16 | the merge raises if and only if such a clashing path exists |
| Merge.UpdateIdempotent | stitch/helpers.py:4-16 | merging the same override a second time changes nothing |
| Merge.UpdateShowsOverride | stitch/helpers.py:10-15 | every entry of the override appears in the result, nested mappings key by key |
| Merge.ShowsSurvivesUpdate | stitch/helpers.py:10-15 | a further merge keeps every entry an earlier layer showed, except where the new layer replaces it |
| Merge.ShowsSurvivesOverlay | stitch/helpers.py:10-15 | the same holds across any number of further merges |
| Merge.OverlayPrecedence | stitch/fabfile.py:80-89 | in a sequence of merges, each layer shows in the result wherever no later layer replaces it |
| Merge.OverlayKeepsBase | stitch/fabfile.py:80-89 | the starting mapping shows wherever no layer replaces it |
| Merge.OverlayShows | stitch/fabfile.py:80-89 | after a sequence of merges onto a mapping, the mapping shows wherever no layer replaces it, each layer wherever no later one does, and the last layer everywhere |
| Merge.OverlayAppend | fabfile.py:131-143 | merging two runs of layers one after the other is merging their concatenation |
| Merge.OverlayLastTwo | stitch/fabfile.py:86-89 | the last layer shows everywhere, and the one before it wherever the last does not replace it |
| Hosts.ReverseIndex | stitch/fabfile.py:56-58 | the reverse dict maps each string hostname to a host that declares it, holds every hostname of the hosts it visited, and the last visited host declaring a hostname wins |
| Hosts.HostShortname | stitch/fabfile.py:46-60 | a short name found declares the hostname; None exactly when no host declares it |
| Hosts.ShortnameOfHostname | fabfile.py:98-112 | the reverse lookup of a host's own hostname gives back its short name when no other host declares that hostname |
| Hosts.HostDict | stitch/fabfile.py:39-43 | KeyError exactly for a hostname no host declares; otherwise the record has the keys of the host defaults and of the host's entry |
| Hosts.HostDictFields | stitch/fabfile.py:39-43 | host defaults overlaid shallowly by the host entry: every key of the entry wins, and a key only the defaults have keeps the default |
| Hosts.HostKey | stitch/fabfile.py:35 | a listed member resolves exactly when it is a configured host's short name |
| Hosts.MemberHostnames | stitch/fabfile.py:34-35 | the members' hostnames in the listed order, defined exactly when every member is a configured host |
| Hosts.RoleMembers | fabfile.py:74-76 | a role's member list, a single string counting as one member; its meaning is stated by `Hosts.RoleExpansion` |
| Hosts.RoleDefs | fabfile.py:73-82 | the `roledefs` that `setup_roles` builds; its meaning is stated by `Hosts.RoleDefsFrom` and `Hosts.RoleExpansion` |
| Hosts.RoleDefsFrom | stitch/fabfile.py:29-35 | each role visited so far is defined, and maps to its members' hostnames |
| Hosts.RoleExpansion | fabfile.py:73-82 | every role maps to the hostnames of the short names it lists, in order; a single string is a one-element list |
| Hosts.IsLocal | fabfile.py:85-88 | a hostname is local if and only if it is among the `testing` role's hostnames; KeyError when that role is missing |
| Hosts.IsLocalIffTestingHost | fabfile.py:85-88 | a hostname is local if and only if a host listed under `testing` declares it |
| Sites.SiteEntry | stitch/fabfile.py:87 | a `based_on` value names an entry exactly when it is the name of a configured site |
| Sites.UpdateMap | stitch/fabfile.py:89 | merging into a mapping gives a mapping, and is `update` on it |
| Sites.WithHostOverrides | stitch/fabfile.py:83-84 | the host's overrides merge into the `settings_overrides` entry only; KeyError when the defaults lack that entry |
| Sites.AfterHost | fabfile.py:136-137 | the second step keeps exactly the keys of the site defaults |
| Sites.AfterHostIsOverlay | fabfile.py:136-137 | the second step is the merge of the host's layer, present only when the host's overrides are truthy |
| Sites.AfterParent | fabfile.py:139-140 | the third step succeeds only when the `based_on` parent is absent or names a configured site, and loses no key |
| Sites.AfterParentIsOverlay | fabfile.py:139-140 | the third step is the merge of the parent's entry, present only when `based_on` is truthy |
| Sites.SiteSettings | stitch/fabfile.py:78-90 | KeyError for an unknown host or site; the result holds every default key and every key of the site, and a non-mapping field of the site appears as written |
| Sites.SiteSettingsIsOverlay | fabfile.py:131-143 | the resolution is the merge of host overrides, parent and site, in that order, onto the site defaults |
| Sites.SitePrecedence | stitch/fabfile.py:78-90 | the site's own fields win everywhere, then the parent's, then the host overrides, then the defaults |
| Sites.BasedOnOneLevel | stitch/fabfile.py:86-87 | the parent's own `based_on` is not followed: the layers are host overrides, the parent, the site, and the site's fields win over the parent's |
| Sites.ScalarOnHosts | stitch/fabfile.py:96-97 | `on_hosts: "h"` behaves as `["h"]` |
| Sites.SiteOnHost | stitch/fabfile.py:93-101 | a site on the host resolves; the stitch copy never raises KeyError, and the root copy raises what the resolution raises |
| Sites.RevisionsAgree | fabfile.py:146-152 | the two copies agree except that stitch reports a KeyError during resolution as "not on the host" |
| Sites.OnHostMeaning | fabfile.py:147-152 | the test is the string's equality, list membership or mapping-key membership of the host's short name; TypeError when `on_hosts` is missing |
| Sites.OnHostsMeaning | stitch/fabfile.py:96-101 | `host in on_hosts`, with a string first made a one-element list, is string equality, list membership or mapping-key membership, and never raises KeyError |
| Sites.Keep | stitch/fabfile.py:63-70 | the kept names are exactly those whose test came out true, in order; the scan fails exactly when some test raises |
| Sites.KeepNone | stitch/fabfile.py:63-70 | a scan whose every test is false keeps nothing |
| Sites.NothingOnHost | stitch/fabfile.py:63-70 | when no site of the list is on the host, the scan keeps none |
| Sites.SitesOnHost | stitch/fabfile.py:63-70 | a site is kept exactly when it is on the host, the order is kept, and the scan fails exactly when some test raises |
| Sites.GetSites | fabfile.py:115-122 | exactly the configured sites that are on the current host, in iteration order |
| Sites.UnknownHostHasNoSites | stitch/fabfile.py:93-101 | for a host no entry declares, the stitch copy finds no site |
| Dispatch.StepsFor | stitch/fabfile.py:268-274 | one step per site in order; a site is run exactly when it is on the host, and skipped otherwise |
| Dispatch.StepsOf | stitch/fabfile.py:268-274 | one step per site, in order, run exactly when its test is true; the dispatch fails exactly when some test raises |
| Dispatch.RanSitesInOrder | stitch/fabfile.py:268-274 | the sites run are those of the steps that ran, each in its place in the site list |
| Dispatch.ProcessSites | stitch/fabfile.py:262-275 | with site names given, exactly those sites in the given order, each run exactly when on the host |
| Dispatch.RanSitesAreTheOnHostOnes | stitch/fabfile.py:268-274 | the sites run are those of the chosen list that are on the host, in the chosen order; a name chosen twice is run twice |
| Dispatch.NoArgumentsRunsAllHostSites | stitch/fabfile.py:264-265 | with no names given, every site of `get_sites()` is run, in order, and none is skipped |
| Commands.GitClone | fabfile.py:331-332 | `git_clone(url)`; its words are stated by `Commands.CloneWords` |
| Commands.GitCheckout | fabfile.py:335-336 | `git_checkout(directory, parent, branch)`; its words are stated by `Commands.CheckoutWords` |
| Commands.GitPull | fabfile.py:339-340 | `git_pull(directory, parent, branch)`; its words are stated by `Commands.PullWords` |
| Commands.InVirtualenv | fabfile.py:286-292 | the command `virtualenv(command)` runs; its words are stated by `Commands.InVirtualenvWords` |
| Commands.CheckoutWords | fabfile.py:335-336 | the checkout command splits into `cd <dir>; git checkout -b <branch> <parent>/<branch>`, each argument in its place |
| Commands.PullWords | fabfile.py:339-340 | the pull command splits into `cd <dir>; git pull <parent> <branch>` |
| Commands.CloneWords | fabfile.py:331-332 | the clone command splits into `git clone <url>` |
| Commands.InVirtualenvWords | fabfile.py:289-292 | a command run in the site's virtualenv splits into `workon <site>;`, `cdvirtualenv;` and the command's own words |
| Commands.SplitJoined | fabfile.py:335-340 | splitting words joined by single spaces gives the words back |
| Targets.ProjectDir | fabfile.py:263-266 | `"%s/%s/%s" % (virtualenv_dir, site, project_name)`; its layout is stated by `Targets.ProjectDirLayout` |
| Targets.ProjectDirLayout | stitch/fabfile.py:205-208 | the project directory is the project name inside the site's directory inside the virtualenv root |
| Targets.Requirements | stitch/fabfile.py:247-249 | `requirements.txt` directly inside the project directory; fails exactly when the project directory cannot be formed |
| Targets.PyPathFor | stitch/fabfile.py:128 | the site's import path for the host, `[]` when the host has none; fails exactly when `pythonpath` is not a mapping |
| Targets.OverridesOf | stitch/fabfile.py:167 | the overrides written into `settings.py` are the resolved `settings_overrides`; KeyError when missing |
| Targets.PackageConfs | stitch/fabfile.py:117-137 | KeyError for an unknown host; otherwise derived from the host record and the resolved settings |
| Targets.PackageContextOf | stitch/fabfile.py:117-172 | the template context holds the host's import path and the resolved overrides and original settings; the apache file is `<apache_dir>/<host>/<site>.conf`, the WSGI file `<wsgi_dir>/<site>.conf`, the virtualenv `<virtualenv_dir>/<site>` and the settings directory `<staging_settings>/<site>`, each joined as `os.path.join` does |
| Targets.PackageTargetsKeepSitesApart | stitch/fabfile.py:117-172 | two different sites never share an apache file, WSGI file, settings directory, `settings.py` or virtualenv directory |
| Targets.PackageConfNames | stitch/fabfile.py:135-136 | the apache and WSGI files are `<site>.conf`, and `settings.py` sits in the site's settings directory |
| Targets.RootConfs | fabfile.py:155-174 | KeyError for an unknown host; otherwise derived from the host record and the resolved settings |
| Targets.RootTargetsOf | fabfile.py:177-244 | `<site>.conf` goes to apache, `sites.<site>.conf` to WSGI, `settings.py` to `<staging_settings>/<site>`; the context holds the resolved overrides and import path |
| Targets.TargetsKeepSitesApart | fabfile.py:155-244 | two different sites never share a generated file |
| Targets.RootConfsKeepSitesApart | fabfile.py:155-244 | two different sites never share a generated file |
| Targets.CheckoutStep | fabfile.py:272-274 | no checkout for branch `master`; otherwise exactly `git_checkout(proj_dir, git_parent, git_branch_name)`, failing exactly when the parent or the branch cannot be formatted |
| Targets.InVirtualenvAll | fabfile.py:289-292 | each command runs inside the site's virtualenv, in order |
| Targets.ResolveSetup | fabfile.py:251-266 | KeyError for an unknown host; the staging directory is `<code_dir>/staging`, and the settings and project directory are the site's resolved ones |
| Targets.HostIsLocal | fabfile.py:23-31 | the `is_local(env.host)` that every probe and command of the root fabfile asks first: `Hosts.IsLocal` on the role definitions, raising KeyError without a `testing` role |
| Targets.ProvisionPlan | fabfile.py:247-277 | KeyError for an unknown host; after the lookups, the existence probe raises as `is_local` does; nothing is cloned when the project directory exists |
| Targets.FreshCheckout | fabfile.py:268-277 | a missing project is cloned first, checked out unless the branch is `master`, and the staging and site directories are then added to the virtualenv's path; for a branch other than `master` the second command is the checkout in the project directory |
| Targets.CheckoutInProject | fabfile.py:268-274 | for a branch other than `master`, the checkout runs in the site's virtualenv, changes to the project directory and creates the branch from `<git_parent>/<branch>` |
| Targets.ProvisionSteps | fabfile.py:259-277 | a plan for a missing project is exactly the fresh checkout for the host's directories |
| Targets.Provision | fabfile.py:259-277 | the lookups' error, then `is_local`'s error; otherwise one pass runs the plan its existence probe decides; after a clone the directory `<virtualenv_dir>/<site>/<repository name>` exists, and nothing else is added |
| Targets.ProvisionWithoutProject | fabfile.py:268-277 | a pass that does not find the project runs the same commands whatever other paths exist |
| Targets.ProvisionTwiceClonesOnce | fabfile.py:263-270 | when the repository is named after the project, a second pass finds the checkout the first made and runs nothing |
| Targets.ProvisionClonesAgain | fabfile.py:263-270 | when it is not, the probe never finds the checkout, and a second pass clones again with the same commands |
| Targets.PackageSetupVirtualenv | stitch/fabfile.py:192-221 | as written, a missing project always makes the stitch copy raise before any command |
| Targets.PackageSetupNeverClones | stitch/fabfile.py:212 | where the root copy would clone, the stitch copy raises TypeError |
| Markers.MarkersAsWritten | fabfile.py:202-211 | the probes and targets as written; their effect is stated by `Markers.AsWrittenRecreates` |
| Markers.MarkersProbed | fabfile.py:201-211 | each corrected probe looks for the path it would create |
| Markers.Creates | fabfile.py:201-211 | a file is created exactly when its probe finds nothing |
| Markers.CreatesIdempotent | fabfile.py:201-211 | when each probe looks for its own target, a second setup creates nothing |
| Markers.ProbedSetupIdempotent | fabfile.py:201-211 | setting up a settings directory twice creates its files once |
| Markers.AsWrittenRecreates | stage.py:147-154 | as written, the probes miss the files just created, so every setup creates both again |
| Stage.Selected | stage.py:61-66 | `ALL` selects every configured site; otherwise exactly the named sites, a name without an entry mapping to None |
| Stage.SelectedNoneRaises | stage.py:66-73 | a selected name without an entry stops the run |
| Stage.ParentEntry | stage.py:75-76 | a parent is usable exactly when it names a configured site |
| Stage.Inherit | stage.py:73-77 | the child's top-level keys replace the parent's wholesale, the parent's other keys are kept, and the parent's entry becomes the merged one |
| Stage.PythonPath | stage.py:79-85 | the site's `pythonpath` if present, else the default; a string becomes a one-element list; KeyError when the defaults lack one, even if the site has its own |
| Stage.Overrides | stage.py:130-132 | the site's definition overlaid by the site defaults, so a default wins on a shared key |
| Stage.Finish | stage.py:79-157 | KeyError without a default `pythonpath` or a `rembrandt` host; otherwise it succeeds exactly when the project directory and branch can be formed, and gives the import path, `<project_dir>/<project_name>`, the `mkvirtualenv.sh` command, `httpd/<site>.conf`, `wsgi/sites.<site>.conf`, the overrides and `<settings_dir>/<site>/settings.py` |
| Stage.StageOutputsKeepSitesApart | stage.py:107-157 | two different sites never share an apache, WSGI or settings file |
| Stage.Mkvirtualenv | stage.py:90 | the `mkvirtualenv.sh` command line; its words are stated by `Stage.MkvirtualenvWords` |
| Stage.MkvirtualenvWords | stage.py:88-90 | `mkvirtualenv.sh` receives the site, the checkout directory and the branch as its three arguments |
| Stage.FinishProjectDir | stage.py:88 | the checkout goes to `<project_dir of rembrandt>/<project_name>` |
| Stage.StageSite | stage.py:68-157 | one iteration stages the definition the `based_on` step produced, and the staged record is exactly what `Stage.Finish` derives from it; it raises exactly when the `based_on` step or `Stage.Finish` raises, with the `based_on` step's error first |
| Stage.StageFresh | stage.py:68-157 | staging a site from the configuration as loaded succeeds exactly when its iteration does, with the same record or the same error |
| Stage.RunAsWritten | stage.py:68-162 | the sites are staged in iteration order, only configured sites are staged, and a run that stops has staged fewer sites than it was given; every staged record is what `Stage.Finish` derives for its site |
| Stage.RunAsWrittenThreads | stage.py:68-77 | each staged site was staged from the entries the earlier iterations left, and hands its own entries on to the next |
| Stage.ThreadedThreads | stage.py:68-77 | in a loop that hands state on, each staged iteration took the state the earlier ones left and handed its own on |
| Stage.ThreadedStops | stage.py:68-77 | such a loop stops with the exception of the first iteration that raises |
| Stage.AsWrittenIsThreaded | stage.py:68-77 | stage.py's loop as written is such a loop, with one site's staging as its step |
| Stage.RunAsWrittenStops | stage.py:68-77 | a run that stops does so with the exception of the first iteration that raises, given the entries the earlier ones left |
| Stage.Main | stage.py:61-162 | only selected, configured sites are staged, none twice, each record being what `Stage.Finish` derives; apache is restarted exactly when every selected site staged, which needs every selected name to be configured |
| Stage.RunSteps | stage.py:68-162 | a loop whose iterations do not affect each other stages every iteration before the first one that raises, in order, and stops with that one's error |
| Stage.RunFresh | stage.py:68-162 | the sites are staged in order, each from the configuration as loaded; a failure stops the run at the failing site, with that site's own error |
| Stage.UnknownSiteStops | stage.py:64-73 | a name without an entry stops the run no later than its place |
| Stage.FreshDefinition | stage.py:73-77 | a site with a parent is staged as the parent's entry with its own fields on top; a site without one, as its own entry |
| Stage.AgreeWithoutInheritance | stage.py:73-77 | without `based_on`, the as-written and the corrected runs are the same |
| Stage.ChildRewritesBase | stage.py:73-77 | staging `child` before `base`, as written, stages `base` with `child`'s project, while the corrected run keeps `base`'s own |
| Stage.TwoSiteRuns | stage.py:68-77 | when both of two sites stage, both runs stage both, the second as written from the entries the first left behind |

## Left out

- File and remote I/O is not modelled: YAML loading, Jinja rendering, `run`/`local`/`sudo`/`put`/`exists`, `os.system`, `os.popen4`, printing, and the `urllib` download. The configuration is a value, and the outputs are the derived strings and records.
- `get_site_packages` and stage.py's `sitepackages` are not modelled, because they are read from a shell command. The template variables `admin_media`, `sitepackages`, `staging_domain` and `wsgi_dir` are left out with them.
- The `virtualenv()` workon/mkvirtualenv fallback is left out, as are `restart()`, `pip_update`, `deploy` and the `--reinstall`/`--upgrade` flags. These are shell I/O, or the code leaves them unimplemented.
- In-place mutation through aliasing is not modelled in `get_site_settings` (stitch/fabfile.py:84, 87, 89 and fabfile.py:137, 140, 142). `.copy()` is shallow, so a merge writes into the nested mappings of `sites_defaults`, such as `settings_overrides` or a mapping `pythonpath`. The parent's entry is only read there. A later resolution in the same process can then see an earlier one's overrides. Every resolution here starts from the configuration as loaded. `Merge.UpdateIdempotent` shows that re-applying the same host's overrides is harmless. stage.py's copy of this mutation is modelled; see Findings.
- The stitch `setup` is wrapped by `@process_sites` twice (stitch/fabfile.py:278-279), which reruns the inner loop once per outer site. Only a single wrapper is modelled, and the operation it calls is not.
- Only the first failure of a run is modelled. Each operation stops at the first exception; the effects of the sites processed before it are I/O, and are not modelled.
- The root fabfile's `set_apache_conf`, `set_wsgi_conf` and `set_settings_overrides` are combined into one per-site record (`Targets.RootConfs`). When more than one of them would fail, only the first failure in that combined order is reported.
- Targets.RootTargetsOf: a non-string `wsgi_dir` raises TypeError in the model. In the source, set_wsgi_conf never joins `wsgi_dir` (fabfile.py:177-197); it raises only on a local host, from `os.path.expanduser` (fabfile.py:32). On a remote host the value goes as it is to Fabric's `exists`, `run` and `put`, whose behaviour the model does not follow.
- Of the root fabfile's uploads only the remote target paths are modelled (`<apache_dir>/<host>`, `wsgi_dir` and `<staging_settings>/<site>`); the local copies under `/Users/bturner/Projects/staging/...` and the upload of `__init__.py` and `manage.py` are not.
- Hosts.RoleMembers: a role whose member list is a mapping raises TypeError here. Python iterates the mapping's keys, in an order the language leaves unspecified.
- Hosts.RoleMembers, Sites.OnHostsMeaning, Stage.PythonPath: every loaded string counts as a Python `str`. On Python 2, PyYAML loads a non-ASCII scalar as `unicode`, for which `isinstance(x, str)` is false. Such a role member or `pythonpath` is then not wrapped in a list, and `host in on_hosts` becomes a substring test (stitch/fabfile.py:31, stitch/fabfile.py:96-98, stage.py:84).
- Targets.Provision: assumes that `cdvirtualenv` enters `<virtualenv_dir>/<site>`, that is, that virtualenvwrapper's home is the host's `virtualenv_dir`. `Targets.CloneDir` takes the URL's last '/'-separated component without `.git`. Git's handling of trailing slashes and of `host:repo` addresses without a '/' is not modelled.
- The shape of the configuration is fixed: host entries, site entries and both defaults are mappings with string keys.
- Hosts.HostShortname: skips a host whose `hostname` is a list or mapping. Python raises TypeError on such an unhashable key.
- PyValues.PercentS: yields `Unformatted` for a list or mapping. Python's repr text is not modelled.
- The pretty-printing of override values (`pprint.pformat`) is not modelled. The overrides stay values.
- Python 2's dict iteration order is an explicit sequence (`Config.WellFormed`), not computed.

## Findings

| source | as written | input that shows it | evidently intended | confidence | as-written member | corrected member |
|---|---|---|---|---|---|---|
| fabfile.py:202-211 | the existence probes test `dir + '__init__.py'` and `dir + 'manage.py'`, with no '/', but create `os.path.join(dir, '__init__.py')` and `dir + '/manage.py'` | any settings directory not ending in '/', e.g. `/srv/s`: after one setup, the probe looks for `/srv/s__init__.py` | probe the path that is created, so a second setup creates and downloads nothing | high (not executed) | Markers.AsWrittenRecreates | Markers.ProbedSetupIdempotent |
| stage.py:73-77 | `parent_settings.update(sitedict)` changes the parent's configured entry in place | sites `base: {project_name: b}` and `child: {based_on: base, project_name: c}`, iterated child first: `base` is then staged with project `c` | overlay a copy of the parent, so every site is staged from the configuration as loaded | high (not executed) | Stage.ChildRewritesBase | Stage.RunFresh |
| stitch/fabfile.py:212-216 | `setup_virtualenv` calls `git_clone(url)` and `git_checkout(dir, parent, branch)`, but both are declared with no parameters (lines 175, 181) | any site whose project directory does not exist: the call raises TypeError before anything is cloned | clone and check out as the root fabfile.py does | high (not executed) | Targets.PackageSetupNeverClones | Targets.ProvisionSteps |

=== FILE: commands.dfy ===
/** The shell command strings the root fabfile.py builds for source control
    and for running inside a site's virtualenv, and the word structure that
    makes them parse back into their arguments. */
module Commands {

  /** `'git clone %s' % url`. */
  function GitClone(url: string): string {
    "git clone " + url
  }

  /** `git_checkout(directory, parent, branch)`. */
  function GitCheckout(directory: string, parent: string, branch: string): string {
    "cd " + directory + "; git checkout -b " + branch + " " + parent + "/" + branch
  }

  /** `git_pull(directory, parent, branch)`. */
  function GitPull(directory: string, parent: string, branch: string): string {
    "cd " + directory + "; git pull " + parent + " " + branch
  }

  /** The command `virtualenv(command)` finally runs for the site. */
  function InVirtualenv(site: string, command: string): string {
    "workon " + site + "; cdvirtualenv; " + command
  }

  /** `s.split(' ')`. */
  function Split(s: string): (r: seq<string>)
    ensures |r| >= 1
    decreases |s|
  {
    if s == [] then [""]
    else if s[0] == ' ' then [""] + Split(s[1..])
    else
      var rest := Split(s[1..]);
      [[s[0]] + rest[0]] + rest[1..]
  }

  predicate NoSpace(s: string) {
    ' ' !in s
  }

  lemma NoSpaceConcat(a: string, b: string)
    requires NoSpace(a) && NoSpace(b)
    ensures NoSpace(a + b)
  {
    assert forall i | 0 <= i < |a + b| :: (a + b)[i] == if i < |a| then a[i] else b[i - |a|];
  }

  lemma {:induction false} SplitWord(a: string, b: string)
    requires NoSpace(a)
    ensures Split(a + " " + b) == [a] + Split(b)
    decreases |a|
  {
    if a == [] {
      assert a + " " + b == " " + b;
      assert (" " + b)[1..] == b;
    } else {
      var s := a + " " + b;
      assert s[0] == a[0];
      assert s[1..] == a[1..] + " " + b;
      SplitWord(a[1..], b);
      assert [a[0]] + a[1..] == a;
    }
  }

  lemma {:induction false} SplitSingle(a: string)
    requires NoSpace(a)
    ensures Split(a) == [a]
    decreases |a|
  {
    if a != [] {
      SplitSingle(a[1..]);
      assert [a[0]] + a[1..] == a;
    }
  }

  /** Splitting words joined by single spaces gives the words back. */
  lemma {:induction false} SplitJoined(words: seq<string>)
    requires |words| >= 1
    requires forall i | 0 <= i < |words| :: NoSpace(words[i])
    ensures Split(Unwords(words)) == words
    decreases |words|
  {
    if |words| == 1 {
      SplitSingle(words[0]);
    } else {
      SplitWord(words[0], Unwords(words[1..]));
      SplitJoined(words[1..]);
    }
  }

  /** The words joined by single spaces. */
  function Unwords(words: seq<string>): string
    requires |words| >= 1
    decreases |words|
  {
    if |words| == 1 then words[0] else words[0] + " " + Unwords(words[1..])
  }

  /** The checkout command splits into the words of
      `cd <dir>; git checkout -b <branch> <parent>/<branch>`, so each
      argument lands in its place whenever none contains a space. */
  lemma CheckoutWords(directory: string, parent: string, branch: string)
    requires NoSpace(directory) && NoSpace(parent) && NoSpace(branch)
    ensures Split(GitCheckout(directory, parent, branch)) ==
            ["cd", directory + ";", "git", "checkout", "-b", branch, parent + "/" + branch]
  {
    var target := parent + "/" + branch;
    var words := ["cd", directory + ";", "git", "checkout", "-b", branch, target];
    UnwordsCheckout(directory + ";", branch, target);
    CheckoutString(directory, parent, branch);
    NoSpaceConcat(directory, ";");
    NoSpaceConcat(parent, "/");
    NoSpaceConcat(parent + "/", branch);
    assert forall i | 0 <= i < |words| :: NoSpace(words[i]);
    SplitJoined(words);
  }

  lemma UnwordsCons(w: string, rest: seq<string>)
    requires |rest| >= 1
    ensures Unwords([w] + rest) == w + " " + Unwords(rest)
  {
    assert ([w] + rest)[1..] == rest;
  }

  lemma UnwordsCheckout(dir: string, branch: string, target: string)
    ensures Unwords(["cd", dir, "git", "checkout", "-b", branch, target]) ==
            "cd" + " " + (dir + " " + ("git" + " " + ("checkout" + " " + ("-b" + " " + (branch + " " + target)))))
  {
    UnwordsCons(branch, [target]);
    UnwordsCons("-b", [branch, target]);
    UnwordsCons("checkout", ["-b", branch, target]);
    UnwordsCons("git", ["checkout", "-b", branch, target]);
    UnwordsCons(dir, ["git", "checkout", "-b", branch, target]);
    UnwordsCons("cd", [dir, "git", "checkout", "-b", branch, target]);
  }

  lemma CheckoutString(directory: string, parent: string, branch: string)
    ensures GitCheckout(directory, parent, branch) ==
            "cd" + " " + ((directory + ";") + " " + ("git" + " " + ("checkout" + " " + ("-b" + " " + (branch + " " + (parent + "/" + branch))))))
  {
  }

  /** The pull command splits into the words of
      `cd <dir>; git pull <parent> <branch>`. */
  lemma PullWords(directory: string, parent: string, branch: string)
    requires NoSpace(directory) && NoSpace(parent) && NoSpace(branch)
    ensures Split(GitPull(directory, parent, branch)) == ["cd", directory + ";", "git", "pull", parent, branch]
  {
    var words := ["cd", directory + ";", "git", "pull", parent, branch];
    UnwordsPull(directory + ";", parent, branch);
    PullString(directory, parent, branch);
    NoSpaceConcat(directory, ";");
    assert forall i | 0 <= i < |words| :: NoSpace(words[i]);
    SplitJoined(words);
  }

  lemma UnwordsPull(dir: string, parent: string, branch: string)
    ensures Unwords(["cd", dir, "git", "pull", parent, branch]) ==
            "cd" + " " + (dir + " " + ("git" + " " + ("pull" + " " + (parent + " " + branch))))
  {
    UnwordsCons(parent, [branch]);
    UnwordsCons("pull", [parent, branch]);
    UnwordsCons("git", ["pull", parent, branch]);
    UnwordsCons(dir, ["git", "pull", parent, branch]);
    UnwordsCons("cd", [dir, "git", "pull", parent, branch]);
  }

  lemma PullString(directory: string, parent: string, branch: string)
    ensures GitPull(directory, parent, branch) ==
            "cd" + " " + ((directory + ";") + " " + ("git" + " " + ("pull" + " " + (parent + " " + branch))))
  {
  }

  /** A command run in a site's virtualenv splits into `workon <site>;`,
      `cdvirtualenv;` and the command's own words. */
  lemma InVirtualenvWords(site: string, command: string)
    requires NoSpace(site)
    ensures Split(InVirtualenv(site, command)) == ["workon", site + ";", "cdvirtualenv;"] + Split(command)
  {
    NoSpaceConcat(site, ";");
    assert InVirtualenv(site, command) == "workon" + " " + ((site + ";") + " " + ("cdvirtualenv;" + " " + command));
    SplitWord("cdvirtualenv;", command);
    SplitWord(site + ";", "cdvirtualenv;" + " " + command);
    SplitWord("workon", (site + ";") + " " + ("cdvirtualenv;" + " " + command));
  }

  /** The clone command splits into `git clone <url>`. */
  lemma CloneWords(url: string)
    requires NoSpace(url)
    ensures Split(GitClone(url)) == ["git", "clone", url]
  {
    var words := ["git", "clone", url];
    UnwordsCons("clone", [url]);
    UnwordsCons("git", ["clone", url]);
    assert GitClone(url) == "git" + " " + ("clone" + " " + url);
    SplitJoined(words);
  }
}

=== FILE: config.dfy ===
/** The loaded `staging.yml`: hosts and their defaults, sites and their
    defaults, and roles. Python iterates a mapping in an order the language
    leaves unspecified; each `...Order` field is that iteration order. */
module Config {
  import opened PyValues

  datatype Conf = Conf(
    hosts: map<string, map<string, Value>>,
    hostOrder: seq<string>,
    hostsDefaults: map<string, Value>,
    sites: map<string, map<string, Value>>,
    siteOrder: seq<string>,
    sitesDefaults: map<string, Value>,
    roles: map<string, Value>,
    roleOrder: seq<string>)

  /** `order` lists every key of the mapping exactly once. */
  ghost predicate Enumerates<T>(order: seq<string>, m: map<string, T>) {
    && (forall i, j | 0 <= i < j < |order| :: order[i] != order[j])
    && (forall k | k in order :: k in m)
    && (forall k | k in m :: k in order)
  }

  /** The iteration orders are those of the loaded mappings. */
  ghost predicate WellFormed(c: Conf) {
    && Enumerates(c.hostOrder, c.hosts)
    && Enumerates(c.siteOrder, c.sites)
    && Enumerates(c.roleOrder, c.roles)
  }

  /** `hosts[s].get('hostname')`. */
  function HostnameOf(c: Conf, s: string): Value
    requires s in c.hosts
  {
    Get(c.hosts[s], "hostname")
  }
}

=== FILE: dispatch.dfy ===
/** `process_sites` of stitch/fabfile.py: the per-site dispatcher that picks
    the sites to act on, skips those not on the current host and runs the
    wrapped operation once for each of the others. The operation itself is
    opaque here; the dispatcher's outcome is the ordered record of what it
    did for each site. */
module Dispatch {
  import opened PyValues
  import opened Config
  import opened Hosts
  import opened Sites

  /** What the dispatcher does for one site: print "Invalid site", or set
      `env.site` to it and call the operation. */
  datatype Step = Skipped(site: string) | Ran(site: string)

  /** One step per site, in order, given the outcome of each site's test;
      the first test that raised aborts the dispatch. */
  function StepsOf(sites: seq<string>, tests: seq<Result<bool>>): (r: Result<seq<Step>>)
    requires |tests| == |sites|
    ensures r.Ok? <==> forall i | 0 <= i < |tests| :: tests[i].Ok?
    ensures r.Ok? ==> |r.value| == |sites|
    ensures r.Ok? ==> forall i | 0 <= i < |sites| ::
              && r.value[i].site == sites[i]
              && (r.value[i].Ran? <==> tests[i] == Ok(true))
    decreases |sites|
  {
    if sites == [] then Ok([])
    else
      var on :- tests[0];
      var rest :- StepsOf(sites[1..], tests[1..]);
      assert forall i | 1 <= i < |sites| :: sites[i] == sites[1..][i - 1] && tests[i] == tests[1..][i - 1];
      Ok([if on then Ran(sites[0]) else Skipped(sites[0])] + rest)
  }

  /** One step per site, in order, for the host short name `host`. */
  function StepsFor(c: Conf, hostname: string, host: Option<string>, sites: seq<string>): (r: Result<seq<Step>>)
    ensures r.Ok? ==> |r.value| == |sites|
    ensures r.Ok? ==> forall i | 0 <= i < |sites| ::
              && r.value[i].site == sites[i]
              && (r.value[i].Ran? <==> SiteOnHost(PackageFabfile, c, hostname, sites[i], host) == Ok(true))
    ensures r.Ok? <==> forall i | 0 <= i < |sites| :: SiteOnHost(PackageFabfile, c, hostname, sites[i], host).Ok?
  {
    StepsOf(sites, OnHostTests(PackageFabfile, c, hostname, host, sites))
  }

  /** The sites a dispatch ran the operation for, in order. */
  function RanSites(steps: seq<Step>): seq<string> {
    if steps == [] then []
    else (if steps[0].Ran? then [steps[0].site] else []) + RanSites(steps[1..])
  }

  /** The sites a dispatch chose: `get_sites()` when no site is named,
      otherwise the named sites in the order given. */
  function ChosenSites(c: Conf, hostname: string, args: seq<string>): Result<seq<string>> {
    if args == [] then GetSites(PackageFabfile, c, hostname) else Ok(args)
  }

  /** The wrapped operation with `env.host` = `hostname`, invoked with the
      site names `args`. */
  function ProcessSites(c: Conf, hostname: string, args: seq<string>): (r: Result<seq<Step>>)
    ensures args != [] && r.Ok? ==> |r.value| == |args| && forall i | 0 <= i < |args| :: r.value[i].site == args[i]
    ensures args != [] && r.Ok? ==> forall i | 0 <= i < |args| ::
              (r.value[i].Ran? <==> SiteOnHost(PackageFabfile, c, hostname, args[i], HostShortname(c, hostname)) == Ok(true))
  {
    var sites :- ChosenSites(c, hostname, args);
    StepsFor(c, hostname, HostShortname(c, hostname), sites)
  }

  /** The sites a dispatch ran for are those of its steps that ran, in
      order. */
  lemma {:induction false} RanSitesInOrder(steps: seq<Step>, sites: seq<string>)
    requires |steps| == |sites| && forall i | 0 <= i < |sites| :: steps[i].site == sites[i]
    ensures IsSubsequence(RanSites(steps), sites)
    ensures forall s :: s in RanSites(steps) <==> exists i | 0 <= i < |steps| :: steps[i].Ran? && sites[i] == s
    decreases |steps|
  {
    if steps != [] {
      RanSitesInOrder(steps[1..], sites[1..]);
      assert forall i | 1 <= i < |steps| :: steps[i] == steps[1..][i - 1] && sites[i] == sites[1..][i - 1];
      var ran := RanSites(steps);
      if steps[0].Ran? {
        assert ran[0] == sites[0] && ran[1..] == RanSites(steps[1..]);
      } else {
        assert ran == RanSites(steps[1..]);
        SubsequenceSkip(ran, sites);
      }
    }
  }

  /** Every site the dispatcher ran for is on the host, and every chosen
      site on the host is run, in the chosen order; a name chosen twice is
      run twice. */
  lemma RanSitesAreTheOnHostOnes(c: Conf, hostname: string, host: Option<string>, sites: seq<string>)
    requires StepsFor(c, hostname, host, sites).Ok?
    ensures var ran := RanSites(StepsFor(c, hostname, host, sites).value);
            && IsSubsequence(ran, sites)
            && forall s :: s in ran <==> s in sites && SiteOnHost(PackageFabfile, c, hostname, s, host) == Ok(true)
  {
    var steps := StepsFor(c, hostname, host, sites).value;
    RanSitesInOrder(steps, sites);
  }

  /** With no site named, the dispatcher runs the operation for every site
      of `get_sites()`, in that order, and skips none. */
  lemma NoArgumentsRunsAllHostSites(c: Conf, hostname: string)
    requires ProcessSites(c, hostname, []).Ok?
    ensures var steps := ProcessSites(c, hostname, []).value;
            && GetSites(PackageFabfile, c, hostname).Ok?
            && RanSites(steps) == GetSites(PackageFabfile, c, hostname).value
            && forall i | 0 <= i < |steps| :: steps[i].Ran?
  {
    var sites := GetSites(PackageFabfile, c, hostname).value;
    var steps := ProcessSites(c, hostname, []).value;
    AllRan(steps, sites);
  }

  lemma {:induction false} AllRan(steps: seq<Step>, sites: seq<string>)
    requires |steps| == |sites|
    requires forall i | 0 <= i < |steps| :: steps[i] == Ran(sites[i])
    ensures RanSites(steps) == sites
    decreases |steps|
  {
    if steps != [] {
      AllRan(steps[1..], sites[1..]);
    }
  }
}

=== FILE: hosts.dfy ===
/** Host resolution: role expansion into hostnames, the local-host test, the
    hostname-to-short-name reverse lookup and the effective host record. */
module Hosts {
  import opened PyValues
  import opened Config

  /** Among the first `n` hosts of the iteration order, the `i`th declares
      a string hostname that no later one of them declares. */
  predicate LastDeclaring(c: Conf, n: nat, i: nat)
    requires i < n <= |c.hostOrder|
  {
    && c.hostOrder[i] in c.hosts && HostnameOf(c, c.hostOrder[i]).Str?
    && forall j | i < j < n :: !(c.hostOrder[j] in c.hosts && HostnameOf(c, c.hostOrder[j]) == HostnameOf(c, c.hostOrder[i]))
  }

  /** `reverse_host_dict` once the loop has visited the first `n` hosts of
      the iteration order: each string hostname maps to the short name of
      a host that declares it, the last one visited winning. */
  function ReverseIndex(c: Conf, n: nat): (idx: map<string, string>)
    requires n <= |c.hostOrder|
    ensures forall h | h in idx :: idx[h] in c.hosts && HostnameOf(c, idx[h]) == Str(h)
    ensures forall h | h in idx :: idx[h] in c.hostOrder[..n]
    ensures forall i | 0 <= i < n && c.hostOrder[i] in c.hosts && HostnameOf(c, c.hostOrder[i]).Str? ::
              HostnameOf(c, c.hostOrder[i]).s in idx
    ensures forall i | 0 <= i < n && LastDeclaring(c, n, i) :: idx[HostnameOf(c, c.hostOrder[i]).s] == c.hostOrder[i]
  {
    if n == 0 then map[]
    else
      var idx := ReverseIndex(c, n - 1);
      var k := c.hostOrder[n - 1];
      assert c.hostOrder[..n] == c.hostOrder[..n - 1] + [k];
      if k in c.hosts && HostnameOf(c, k).Str? then idx[HostnameOf(c, k).s := k] else idx
  }

  /** `get_host_shortname(hostname)`: the short name of a host declaring
      this hostname, or None when no host declares it. */
  function HostShortname(c: Conf, hostname: string): (r: Option<string>)
    ensures r.Some? ==> r.value in c.hosts && HostnameOf(c, r.value) == Str(hostname)
    ensures r.None? <==> forall s | s in c.hostOrder && s in c.hosts :: HostnameOf(c, s) != Str(hostname)
  {
    var idx := ReverseIndex(c, |c.hostOrder|);
    assert c.hostOrder[..|c.hostOrder|] == c.hostOrder;
    assert forall s | s in c.hostOrder :: exists i | 0 <= i < |c.hostOrder| :: c.hostOrder[i] == s;
    if hostname in idx then Some(idx[hostname]) else None
  }

  /** For a host whose hostname no other host declares, the reverse lookup
      of that hostname gives back its short name. */
  lemma ShortnameOfHostname(c: Conf, s: string)
    requires WellFormed(c)
    requires s in c.hosts && HostnameOf(c, s).Str?
    requires forall t | t in c.hosts && t != s :: HostnameOf(c, t) != HostnameOf(c, s)
    ensures HostShortname(c, HostnameOf(c, s).s) == Some(s)
  {
  }

  /** `get_host_dict(hostname)`: `hosts_defaults` overlaid, one level deep,
      with the entry of the host that declares this hostname. */
  function HostDict(c: Conf, hostname: string): (r: Result<map<string, Value>>)
    ensures r.Err? <==> HostShortname(c, hostname).None?
    ensures r.Err? ==> r.error == KeyError
    ensures r.Ok? ==> r.value.Keys == c.hostsDefaults.Keys + c.hosts[HostShortname(c, hostname).value].Keys
  {
    match HostShortname(c, hostname)
    case None => Err(KeyError)
    case Some(s) => Ok(c.hostsDefaults + c.hosts[s])
  }

  /** The host record: every key of the host's entry wins, and a key only
      the defaults have keeps the default. */
  lemma HostDictFields(c: Conf, hostname: string)
    requires HostDict(c, hostname).Ok?
    ensures var r := HostDict(c, hostname).value;
            var entry := c.hosts[HostShortname(c, hostname).value];
            && (forall k | k in entry :: r[k] == entry[k])
            && (forall k | k in c.hostsDefaults && k !in entry :: r[k] == c.hostsDefaults[k])
  {
  }

  /** The host short names a role lists; a single string stands for a
      one-element list. A mapping is not iterated: it raises TypeError. */
  function RoleMembers(v: Value): Result<seq<Value>> {
    match v
    case Str(_) => Ok([v])
    case List(items) => Ok(items)
    case _ => Err(TypeError)
  }

  /** `env.conf['hosts'][host]` for a listed member. */
  function HostKey(c: Conf, member: Value): (r: Result<string>)
    ensures r.Ok? <==> member.Str? && member.s in c.hosts
    ensures r.Ok? ==> r.value == member.s
  {
    match member
    case Str(s) => if s in c.hosts then Ok(s) else Err(KeyError)
    case List(_) => Err(TypeError)
    case Dict(_) => Err(TypeError)
    case _ => Err(KeyError)
  }

  /** The hostnames of the listed members, in the listed order. */
  function MemberHostnames(c: Conf, members: seq<Value>): (r: Result<seq<Value>>)
    ensures r.Ok? <==> forall i | 0 <= i < |members| :: members[i].Str? && members[i].s in c.hosts
    ensures r.Ok? ==> |r.value| == |members|
    ensures r.Ok? ==> forall i | 0 <= i < |members| :: r.value[i] == HostnameOf(c, members[i].s)
  {
    if members == [] then Ok([])
    else
      var s :- HostKey(c, members[0]);
      var rest :- MemberHostnames(c, members[1..]);
      assert forall i | 1 <= i < |members| :: members[i] == members[1..][i - 1];
      Ok([HostnameOf(c, s)] + rest)
  }

  /** The `roledefs` the role loop has built after the first `n` roles. */
  function RoleDefsFrom(c: Conf, n: nat): (r: Result<map<string, seq<Value>>>)
    requires n <= |c.roleOrder|
    ensures r.Ok? ==> forall role | role in r.value ::
              role in c.roleOrder[..n] && role in c.roles && RoleMembers(c.roles[role]).Ok?
              && MemberHostnames(c, RoleMembers(c.roles[role]).value) == Ok(r.value[role])
    ensures r.Ok? ==> forall i | 0 <= i < n && c.roleOrder[i] in c.roles :: c.roleOrder[i] in r.value
  {
    if n == 0 then Ok(map[])
    else
      var rd :- RoleDefsFrom(c, n - 1);
      var role := c.roleOrder[n - 1];
      assert c.roleOrder[..n] == c.roleOrder[..n - 1] + [role];
      if role !in c.roles then Ok(rd)
      else
        var members :- RoleMembers(c.roles[role]);
        var hostnames :- MemberHostnames(c, members);
        assert role in c.roleOrder[..n];
        Ok(rd[role := hostnames])
  }

  /** `setup_roles()` and the module-level role loop: `roledefs`. */
  function RoleDefs(c: Conf): Result<map<string, seq<Value>>> {
    RoleDefsFrom(c, |c.roleOrder|)
  }

  /** Role expansion: every role maps to the hostnames of the short names it
      lists, in the listed order, a single short name counting as a
      one-element list. */
  lemma RoleExpansion(c: Conf, role: string)
    requires WellFormed(c)
    requires RoleDefs(c).Ok?
    requires role in c.roles
    ensures RoleMembers(c.roles[role]).Ok?
    ensures var members := RoleMembers(c.roles[role]).value;
            var hostnames := RoleDefs(c).value[role];
            && |hostnames| == |members|
            && forall i | 0 <= i < |members| ::
                 members[i].Str? && members[i].s in c.hosts && hostnames[i] == HostnameOf(c, members[i].s)
    ensures c.roles[role].Str? ==> RoleDefs(c).value[role] == [HostnameOf(c, c.roles[role].s)]
  {
    assert c.roleOrder[..|c.roleOrder|] == c.roleOrder;
    var i :| 0 <= i < |c.roleOrder| && c.roleOrder[i] == role;
  }

  /** `is_local(host)`: whether the hostname is one of the `testing` role's. */
  function IsLocal(roledefs: map<string, seq<Value>>, hostname: string): (r: Result<bool>)
    ensures r.Err? <==> "testing" !in roledefs
    ensures r.Ok? ==> (r.value <==> exists i | 0 <= i < |roledefs["testing"]| :: roledefs["testing"][i] == Str(hostname))
  {
    if "testing" in roledefs then Ok(Str(hostname) in roledefs["testing"]) else Err(KeyError)
  }

  /** A hostname is local exactly when some short name the `testing` role
      lists is a host declaring that hostname. */
  lemma IsLocalIffTestingHost(c: Conf, hostname: string)
    requires WellFormed(c)
    requires RoleDefs(c).Ok? && "testing" in c.roles
    ensures IsLocal(RoleDefs(c).value, hostname).Ok?
    ensures var members := RoleMembers(c.roles["testing"]).value;
            IsLocal(RoleDefs(c).value, hostname).value <==>
              exists i | 0 <= i < |members| :: HostnameOf(c, members[i].s) == Str(hostname)
  {
    RoleExpansion(c, "testing");
  }
}

=== FILE: markers.dfy ===
/** The marker files a settings directory needs (`__init__.py` and
    `manage.py`) and the existence probe that decides whether to create
    each one, in the root fabfile.py's setup_settings_dir and in stage.py.
    The file system is a set of existing paths. */
module Markers {
  import opened PyValues

  /** One file to create when its probe finds nothing. */
  datatype Marker = Marker(probe: string, target: string)

  /** The probes as written: the directory and the file name are run
      together with no '/' between them, while the file is created at the
      joined path. */
  function MarkersAsWritten(dir: string): seq<Marker> {
    [Marker(dir + "__init__.py", Join(dir, "__init__.py")),
     Marker(dir + "manage.py", dir + "/manage.py")]
  }

  /** The probes corrected: each looks for the path it would create. */
  function MarkersProbed(dir: string): (r: seq<Marker>)
    ensures forall i | 0 <= i < |r| :: r[i].probe == r[i].target
  {
    [Marker(Join(dir, "__init__.py"), Join(dir, "__init__.py")),
     Marker(dir + "/manage.py", dir + "/manage.py")]
  }

  /** The paths a setup creates, in order, when `present` already exist. */
  function Creates(markers: seq<Marker>, present: set<string>): (r: seq<string>)
    ensures forall p :: p in r <==> exists i | 0 <= i < |markers| :: markers[i].target == p && markers[i].probe !in present
  {
    if markers == [] then []
    else
      var rest := Creates(markers[1..], present);
      assert forall i | 1 <= i < |markers| :: markers[i] == markers[1..][i - 1];
      (if markers[0].probe in present then [] else [markers[0].target]) + rest
  }

  /** When every probe looks for its own target, a second setup creates
      nothing: the first one left every target in place. */
  lemma {:induction false} CreatesIdempotent(markers: seq<Marker>, present: set<string>)
    requires forall i | 0 <= i < |markers| :: markers[i].probe == markers[i].target
    ensures Creates(markers, present + set p | p in Creates(markers, present)) == []
    decreases |markers|
  {
    if markers != [] {
      var after := present + set p | p in Creates(markers, present);
      var first := Creates(markers, present);
      assert markers[0].target in after by {
        if markers[0].probe !in present {
          assert first[0] == markers[0].target;
        }
      }
      var later := present + set p | p in Creates(markers[1..], present);
      CreatesIdempotent(markers[1..], present);
      CreatesIgnoresUnprobed(markers[1..], later, after);
    }
  }

  /** Adding paths that already cover every probed target changes nothing
      once every target is present. */
  lemma {:induction false} CreatesIgnoresUnprobed(markers: seq<Marker>, small: set<string>, big: set<string>)
    requires small <= big
    requires Creates(markers, small) == []
    ensures Creates(markers, big) == []
    decreases |markers|
  {
    if markers != [] {
      assert markers[0].probe in small;
      CreatesIgnoresUnprobed(markers[1..], small, big);
    }
  }

  /** The corrected setup is idempotent. */
  lemma ProbedSetupIdempotent(dir: string, present: set<string>)
    ensures Creates(MarkersProbed(dir), present + set p | p in Creates(MarkersProbed(dir), present)) == []
  {
    CreatesIdempotent(MarkersProbed(dir), present);
  }

  /** As written, the probes never see the files the setup created, so for
      a directory path without a trailing '/' every run creates both files
      again, downloading `manage.py` each time. */
  lemma AsWrittenRecreates(dir: string)
    requires dir != "" && dir[|dir| - 1] != '/'
    ensures var first := Creates(MarkersAsWritten(dir), {});
            && first == [dir + "/" + "__init__.py", dir + "/manage.py"]
            && Creates(MarkersAsWritten(dir), set p | p in first) == first
  {
    var ms := MarkersAsWritten(dir);
    assert "__init__.py"[0] != '/';
    assert Join(dir, "__init__.py") == dir + "/" + "__init__.py";
    assert ms[1..][1..] == [];
    assert Creates(ms[1..], {}) == [dir + "/manage.py"];
    var first := Creates(ms, {});
    assert first == [dir + "/" + "__init__.py", dir + "/manage.py"];
    var seen := set p | p in first;
    assert |dir + "__init__.py"| == |dir| + 11;
    assert |dir + "/" + "__init__.py"| == |dir| + 12;
    assert |dir + "/manage.py"| == |dir| + 10;
    assert |dir + "manage.py"| == |dir| + 9;
    assert dir + "__init__.py" !in seen;
    assert dir + "manage.py" !in seen;
    assert Creates(ms[1..], seen) == [dir + "/manage.py"];
  }
}

=== FILE: merge.dfy ===
/** The recursive, right-biased dictionary merge `update(d, u)` through which
    every configuration layer is applied, and what the result keeps of each
    layer when several are applied one after another. */
module Merge {
  import opened PyValues

  /** `d.get(k, {})`: the base's value under `k`, or a fresh empty mapping. */
  function Below(d: map<string, Value>, k: string): Value {
    if k in d then d[k] else Dict(map[])
  }

  /** `update(d, u)`. Each key of `u` whose value is a mapping is merged
      recursively into the base's value under that key (or into `{}`); any
      other value, a list included, replaces the base's value wholesale.
      Merging a non-empty mapping into a value that is not a mapping raises
      in Python (item assignment or `.get` on a string, list or None); the
      model returns TypeError there. */
  function Update(d: Value, u: map<string, Value>): (r: Result<Value>)
    decreases Dict(u)
    ensures u == map[] ==> r == Ok(d)
    ensures !d.Dict? && u != map[] ==> r == Err(TypeError)
    ensures r.Ok? && d.Dict? ==> r.value.Dict? && r.value.m.Keys == d.m.Keys + u.Keys
    ensures r.Ok? ==> forall k | k in u && !u[k].Dict? :: r.value.Dict? && k in r.value.m && r.value.m[k] == u[k]
    ensures r.Ok? && d.Dict? ==> forall k | k in d.m && k !in u :: r.value.m[k] == d.m[k]
  {
    if u == map[] then Ok(d)
    else if !d.Dict? then Err(TypeError)
    else if exists k | k in u && u[k].Dict? :: Update(Below(d.m, k), u[k].m).Err? then Err(TypeError)
    else Ok(Dict(map k | k in d.m.Keys + u.Keys ::
                   if k !in u then d.m[k]
                   else if u[k].Dict? then Update(Below(d.m, k), u[k].m).value
                   else u[k]))
  }

  /** A mapping value of `u` is merged into `d.get(k, {})`, recursively. */
  lemma UpdateRecurses(d: Value, u: map<string, Value>, k: string)
    requires Update(d, u).Ok?
    requires k in u && u[k].Dict?
    ensures d.Dict?
    ensures Update(Below(d.m, k), u[k].m).Ok?
    ensures Update(d, u).value.m[k] == Update(Below(d.m, k), u[k].m).value
  {
  }

  /** The Python for-loop of `update`, writing one key of `u` into the base
      at a time and recursing for mapping values. */
  method UpdateLoop(d: Value, u: map<string, Value>) returns (r: Result<Value>)
    decreases Dict(u)
    ensures r == Update(d, u)
  {
    if u == map[] {
      return Ok(d);
    }
    if !d.Dict? {
      return Err(TypeError);
    }
    var acc := d.m;
    var todo := u.Keys;
    while todo != {}
      invariant todo <= u.Keys
      invariant acc.Keys == d.m.Keys + (u.Keys - todo)
      invariant forall k | k in acc && k !in u.Keys - todo :: acc[k] == d.m[k]
      invariant forall k | k in u.Keys - todo :: Written(d.m, u, k, acc[k])
      decreases todo
    {
      var k :| k in todo;
      if u[k].Dict? {
        assert Below(acc, k) == Below(d.m, k);
        var sub := UpdateLoop(Below(acc, k), u[k].m);
        if sub.Err? {
          UpdateFailsAt(d, u, k);
          return Err(TypeError);
        }
        acc := acc[k := sub.value];
      } else {
        acc := acc[k := u[k]];
      }
      todo := todo - {k};
    }
    UpdateFromParts(d, u, acc);
    r := Ok(Dict(acc));
  }

  /** What the loop writes under key `k` of `u`. */
  ghost predicate Written(d: map<string, Value>, u: map<string, Value>, k: string, v: Value)
    requires k in u
  {
    if u[k].Dict? then Update(Below(d, k), u[k].m) == Ok(v) else v == u[k]
  }

  lemma UpdateFailsAt(d: Value, u: map<string, Value>, k: string)
    requires d.Dict? && k in u && u[k].Dict?
    requires Update(Below(d.m, k), u[k].m).Err?
    ensures Update(d, u) == Err(TypeError)
  {
  }

  lemma UpdateFromParts(d: Value, u: map<string, Value>, acc: map<string, Value>)
    requires d.Dict? && u != map[]
    requires acc.Keys == d.m.Keys + u.Keys
    requires forall k | k in acc && k !in u :: acc[k] == d.m[k]
    requires forall k | k in u :: Written(d.m, u, k, acc[k])
    ensures Update(d, u) == Ok(Dict(acc))
  {
    assert forall k | k in u && u[k].Dict? :: Update(Below(d.m, k), u[k].m).Ok?;
    assert Update(d, u).value.m == acc;
  }

  /** The value reached from `v` by following `path`, where a key the
      mapping lacks leads to `{}` as `d.get(k, {})` does; None when the walk
      meets a value that is not a mapping. */
  function Walk(v: Value, path: seq<string>): Option<Value>
    decreases |path|
  {
    if path == [] then Some(v)
    else if !v.Dict? then None
    else Walk(Below(v.m, path[0]), path[1..])
  }

  /** The mapping of `u` at `path`, if every step of it leads to a mapping. */
  function Reach(u: map<string, Value>, path: seq<string>): Option<map<string, Value>>
    decreases |path|
  {
    if path == [] then Some(u)
    else if path[0] in u && u[path[0]].Dict? then Reach(u[path[0]].m, path[1..])
    else None
  }

  /** At `path`, `u` holds a non-empty mapping while `d` holds a value that
      is not a mapping: the shape conflict that makes `update` raise. */
  ghost predicate Clash(d: Value, u: map<string, Value>, path: seq<string>) {
    && Reach(u, path).Some? && Reach(u, path).value != map[]
    && Walk(d, path).Some? && !Walk(d, path).value.Dict?
  }

  lemma {:induction false} ClashFails(d: Value, u: map<string, Value>, path: seq<string>)
    requires Clash(d, u, path)
    ensures Update(d, u).Err?
    decreases |path|
  {
    if path != [] {
      var k := path[0];
      assert Reach(u, path) == Reach(u[k].m, path[1..]);
      assert d.Dict?;
      assert Walk(d, path) == Walk(Below(d.m, k), path[1..]);
      ClashFails(Below(d.m, k), u[k].m, path[1..]);
    }
  }

  lemma {:induction false} FailureClashes(d: Value, u: map<string, Value>) returns (path: seq<string>)
    requires Update(d, u).Err?
    ensures Clash(d, u, path)
    decreases Dict(u)
  {
    if !d.Dict? {
      path := [];
    } else {
      var k :| k in u && u[k].Dict? && Update(Below(d.m, k), u[k].m).Err?;
      var rest := FailureClashes(Below(d.m, k), u[k].m);
      path := [k] + rest;
      assert path[1..] == rest;
    }
  }

  /** `update` raises exactly when some path of `u` leads to a non-empty
      mapping where `d` holds a value that is not a mapping. */
  lemma UpdateFailsIffClash(d: Value, u: map<string, Value>)
    ensures Update(d, u).Err? <==> exists path :: Clash(d, u, path)
  {
    if Update(d, u).Err? {
      var path := FailureClashes(d, u);
    }
    if exists path :: Clash(d, u, path) {
      var path :| Clash(d, u, path);
      ClashFails(d, u, path);
    }
  }

  /** Applying the same override twice changes nothing more. */
  lemma {:induction false} UpdateIdempotent(d: Value, u: map<string, Value>)
    requires Update(d, u).Ok?
    ensures Update(Update(d, u).value, u) == Update(d, u)
    decreases Dict(u)
  {
    if u != map[] {
      var r := Update(d, u).value;
      forall k | k in u && u[k].Dict?
        ensures Update(Below(r.m, k), u[k].m) == Ok(r.m[k])
      {
        UpdateRecurses(d, u, k);
        UpdateIdempotent(Below(d.m, k), u[k].m);
      }
      assert Update(r, u).value.m == r.m;
    }
  }

  /** Some later layer replaces key `k` wholesale. */
  predicate Replaced(masks: seq<map<string, Value>>, k: string) {
    exists i | 0 <= i < |masks| :: k in masks[i] && !masks[i][k].Dict?
  }

  /** The mappings that the later layers hold under `k`, in order. */
  function Inner(masks: seq<map<string, Value>>, k: string): seq<map<string, Value>>
    decreases |masks|
  {
    if masks == [] then []
    else (if k in masks[0] && masks[0][k].Dict? then [masks[0][k].m] else []) + Inner(masks[1..], k)
  }

  /** `r` still shows every entry of layer `u` that none of the later layers
      `masks` overrides: a scalar or list of `u` survives unless a later
      layer puts a scalar or list under the same key, and the same holds
      inside nested mappings. */
  ghost predicate Shows(r: Value, u: map<string, Value>, masks: seq<map<string, Value>>)
    decreases Dict(u)
  {
    forall k | k in u && !Replaced(masks, k) ::
      && r.Dict? && k in r.m
      && (if u[k].Dict? then Shows(r.m[k], u[k].m, Inner(masks, k)) else r.m[k] == u[k])
  }

  lemma {:induction false} InnerAppend(masks: seq<map<string, Value>>, w: map<string, Value>, k: string)
    ensures Inner(masks + [w], k) == Inner(masks, k) + (if k in w && w[k].Dict? then [w[k].m] else [])
    decreases |masks|
  {
    if masks == [] {
      assert [w][1..] == [];
    } else {
      assert (masks + [w])[1..] == masks[1..] + [w];
      InnerAppend(masks[1..], w, k);
    }
  }

  lemma ReplacedAppend(masks: seq<map<string, Value>>, w: map<string, Value>, k: string)
    ensures Replaced(masks + [w], k) <==> Replaced(masks, k) || (k in w && !w[k].Dict?)
  {
    if k in w && !w[k].Dict? {
      assert (masks + [w])[|masks|] == w;
    }
    if Replaced(masks, k) {
      var i :| 0 <= i < |masks| && k in masks[i] && !masks[i][k].Dict?;
      assert (masks + [w])[i] == masks[i];
    }
  }

  /** A merged override shows in full in the result. */
  lemma {:induction false} UpdateShowsOverride(d: Value, u: map<string, Value>)
    requires Update(d, u).Ok?
    ensures Shows(Update(d, u).value, u, [])
    decreases Dict(u)
  {
    var r := Update(d, u).value;
    forall k | k in u && !Replaced([], k)
      ensures r.Dict? && k in r.m
      ensures u[k].Dict? ==> Shows(r.m[k], u[k].m, Inner([], k))
      ensures !u[k].Dict? ==> r.m[k] == u[k]
    {
      if u[k].Dict? {
        UpdateRecurses(d, u, k);
        UpdateShowsOverride(Below(d.m, k), u[k].m);
      }
    }
  }

  /** One more merge keeps whatever an earlier layer showed, except where
      the new layer `w` overrides it. */
  lemma {:induction false} ShowsSurvivesUpdate(d: Value, u: map<string, Value>, masks: seq<map<string, Value>>, w: map<string, Value>)
    requires Shows(d, u, masks)
    requires Update(d, w).Ok?
    ensures Shows(Update(d, w).value, u, masks + [w])
    decreases Dict(u)
  {
    var r := Update(d, w).value;
    forall k | k in u && !Replaced(masks + [w], k)
      ensures r.Dict? && k in r.m
      ensures u[k].Dict? ==> Shows(r.m[k], u[k].m, Inner(masks + [w], k))
      ensures !u[k].Dict? ==> r.m[k] == u[k]
    {
      ReplacedAppend(masks, w, k);
      InnerAppend(masks, w, k);
      assert d.Dict? && k in d.m;
      if k !in w {
        assert Inner(masks + [w], k) == Inner(masks, k);
        assert r.m[k] == d.m[k];
        if u[k].Dict? {
          assert Shows(d.m[k], u[k].m, Inner(masks, k));
        }
      } else {
        assert w[k].Dict?;
        UpdateRecurses(d, w, k);
        assert Below(d.m, k) == d.m[k];
        if u[k].Dict? {
          assert Shows(d.m[k], u[k].m, Inner(masks, k));
          ShowsSurvivesUpdate(d.m[k], u[k].m, Inner(masks, k), w[k].m);
          assert Inner(masks + [w], k) == Inner(masks, k) + [w[k].m];
        } else {
          assert !d.m[k].Dict?;
          assert w[k].m == map[];
        }
      }
    }
  }

  /** Merges the layers into `base` one after another, lowest first. */
  function Overlay(base: Value, layers: seq<map<string, Value>>): Result<Value>
    decreases |layers|
  {
    if layers == [] then Ok(base)
    else
      var next :- Update(base, layers[0]);
      Overlay(next, layers[1..])
  }

  lemma {:induction false} ShowsSurvivesOverlay(d: Value, u: map<string, Value>, masks: seq<map<string, Value>>, layers: seq<map<string, Value>>)
    requires Shows(d, u, masks)
    requires Overlay(d, layers).Ok?
    ensures Shows(Overlay(d, layers).value, u, masks + layers)
    decreases |layers|
  {
    if layers == [] {
      assert masks + layers == masks;
    } else {
      ShowsSurvivesUpdate(d, u, masks, layers[0]);
      var next := Update(d, layers[0]).value;
      ShowsSurvivesOverlay(next, u, masks + [layers[0]], layers[1..]);
      assert masks + [layers[0]] + layers[1..] == masks + layers;
    }
  }

  /** Precedence of layered resolution: each layer shows in the result
      except where a later layer overrides it. */
  lemma {:induction false} OverlayPrecedence(base: Value, layers: seq<map<string, Value>>, i: nat)
    requires Overlay(base, layers).Ok?
    requires i < |layers|
    ensures Shows(Overlay(base, layers).value, layers[i], layers[i + 1..])
    decreases i
  {
    var next := Update(base, layers[0]).value;
    assert Overlay(base, layers) == Overlay(next, layers[1..]);
    if i == 0 {
      UpdateShowsOverride(base, layers[0]);
      ShowsSurvivesOverlay(next, layers[0], [], layers[1..]);
      assert [] + layers[1..] == layers[i + 1..];
    } else {
      OverlayPrecedence(next, layers[1..], i - 1);
      assert layers[1..][i - 1] == layers[i];
      assert layers[1..][i..] == layers[i + 1..];
    }
  }

  /** Overlaying two runs of layers is overlaying the first, then the second. */
  lemma {:induction false} OverlayAppend(base: Value, xs: seq<map<string, Value>>, mid: Value, ys: seq<map<string, Value>>)
    requires Overlay(base, xs) == Ok(mid)
    ensures Overlay(base, xs + ys) == Overlay(mid, ys)
    decreases |xs|
  {
    if xs == [] {
      assert xs + ys == ys;
    } else {
      var zs := xs + ys;
      assert zs[0] == xs[0] && zs[1..] == xs[1..] + ys;
      var next := Update(base, xs[0]);
      assert next.Ok?;
      OverlayAppend(next.value, xs[1..], mid, ys);
    }
  }

  /** Everything an overlay of mapping layers on a mapping shows: the base
      wherever no layer overrides it, each layer wherever no later one
      does, and the last layer everywhere. */
  lemma OverlayShows(base: map<string, Value>, layers: seq<map<string, Value>>, i: nat, r: Value)
    requires Overlay(Dict(base), layers) == Ok(r)
    requires i < |layers|
    ensures Shows(r, layers[i], layers[i + 1..])
    ensures Shows(r, base, layers)
    ensures Shows(r, layers[|layers| - 1], [])
  {
    var last := |layers| - 1;
    assert Overlay(Dict(base), layers).value == r;
    assert layers[last + 1..] == [];
    OverlayPrecedence(Dict(base), layers, i);
    OverlayPrecedence(Dict(base), layers, last);
    OverlayKeepsBase(base, layers);
  }

  /** The last two layers of an overlay: the last shows unmasked, the one
      before it shows except where the last overrides it. */
  lemma OverlayLastTwo(base: Value, front: seq<map<string, Value>>, p: map<string, Value>, o: map<string, Value>)
    requires Overlay(base, front + [p] + [o]).Ok?
    ensures var r := Overlay(base, front + [p] + [o]).value;
            Shows(r, p, [o]) && Shows(r, o, [])
  {
    var layers := front + [p] + [o];
    OverlayPrecedence(base, layers, |front|);
    OverlayPrecedence(base, layers, |front| + 1);
    assert layers[|front|] == p && layers[|front| + 1] == o;
    assert layers[|front| + 1..] == [o] && layers[|front| + 2..] == [];
  }

  /** A base mapping shows through every layer merged on top of it, except
      where one of them overrides it. */
  lemma OverlayKeepsBase(base: map<string, Value>, layers: seq<map<string, Value>>)
    requires Overlay(Dict(base), layers).Ok?
    ensures Shows(Overlay(Dict(base), layers).value, base, layers)
  {
    ShowsItself(base);
    ShowsSurvivesOverlay(Dict(base), base, [], layers);
    assert [] + layers == layers;
  }

  lemma {:induction false} ShowsItself(m: map<string, Value>)
    ensures Shows(Dict(m), m, [])
    decreases Dict(m)
  {
    forall k | k in m && m[k].Dict?
      ensures Shows(m[k], m[k].m, Inner([], k))
    {
      ShowsItself(m[k].m);
    }
  }
}

=== FILE: sites.dfy ===
/** Site resolution: the layered effective settings of a site as seen from
    the current host, the site-on-host test of both fabfile revisions, and
    the ordered list of sites a host carries. */
module Sites {
  import opened PyValues
  import opened Merge
  import opened Config
  import opened Hosts

  /** The two copies of the resolver differ only in `site_on_host`:
      stitch/fabfile.py swallows KeyError, the root fabfile.py does not. */
  datatype Revision = PackageFabfile | RootFabfile

  /** `env.conf['sites'][key]` for a loaded value used as the key. */
  function SiteEntry(c: Conf, key: Value): (r: Result<map<string, Value>>)
    ensures r.Ok? <==> key.Str? && key.s in c.sites
    ensures r.Ok? ==> r.value == c.sites[key.s]
  {
    match key
    case Str(p) => if p in c.sites then Ok(c.sites[p]) else Err(KeyError)
    case List(_) => Err(TypeError)
    case Dict(_) => Err(TypeError)
    case _ => Err(KeyError)
  }

  /** `update(d, u)` on a mapping base, which stays a mapping. */
  function UpdateMap(d: map<string, Value>, u: map<string, Value>): (r: Result<map<string, Value>>)
    ensures r.Ok? <==> Update(Dict(d), u).Ok?
    ensures r.Ok? ==> Update(Dict(d), u) == Ok(Dict(r.value))
    ensures r.Ok? ==> r.value.Keys == d.Keys + u.Keys
    ensures r.Ok? ==> forall k | k in u && !u[k].Dict? :: r.value[k] == u[k]
  {
    var merged :- Update(Dict(d), u);
    Ok(merged.m)
  }

  const SettingsOverrides := "settings_overrides"

  /** Step 2 of the resolution:
      `update(settings['settings_overrides'], host_overrides)`. */
  function WithHostOverrides(settings: map<string, Value>, hostOverrides: Value): (r: Result<map<string, Value>>)
    ensures SettingsOverrides !in settings ==> r == Err(KeyError)
    ensures r.Ok? ==> hostOverrides.Dict?
    ensures r.Ok? ==> Update(Dict(settings), map[SettingsOverrides := hostOverrides]) == Ok(Dict(r.value))
    ensures r.Ok? ==> r.value.Keys == settings.Keys
  {
    if SettingsOverrides !in settings then Err(KeyError)
    else if !hostOverrides.Dict? then Err(TypeError)
    else
      var merged :- Update(settings[SettingsOverrides], hostOverrides.m);
      var r := settings[SettingsOverrides := merged];
      assert Update(Dict(settings), map[SettingsOverrides := hostOverrides]).value.m == r;
      Ok(r)
  }

  /** The layer the host's `settings_overrides` contributes, if it is set. */
  function HostLayer(hostDict: map<string, Value>): seq<map<string, Value>> {
    var h := Get(hostDict, SettingsOverrides);
    if Truthy(h) then [map[SettingsOverrides := h]] else []
  }

  /** The `based_on` parent's entry, when the site names one. */
  function ParentLayer(c: Conf, own: map<string, Value>): (r: Result<seq<map<string, Value>>>)
    ensures var p := Get(own, "based_on");
            r.Ok? <==> !Truthy(p) || (p.Str? && p.s in c.sites)
    ensures r.Ok? ==> var p := Get(own, "based_on");
            r.value == if Truthy(p) then [c.sites[p.s]] else []
  {
    if Truthy(Get(own, "based_on")) then
      var parent :- SiteEntry(c, Get(own, "based_on"));
      Ok([parent])
    else Ok([])
  }

  /** Step 2 when the host sets `settings_overrides`, as an overlay. */
  function AfterHost(defaults: map<string, Value>, hostDict: map<string, Value>): (r: Result<map<string, Value>>)
    ensures r.Ok? ==> r.value.Keys == defaults.Keys
  {
    var h := Get(hostDict, SettingsOverrides);
    if Truthy(h) then WithHostOverrides(defaults, h) else Ok(defaults)
  }

  /** Step 2 is the merge of the host's layer, if any. */
  lemma AfterHostIsOverlay(defaults: map<string, Value>, hostDict: map<string, Value>)
    requires AfterHost(defaults, hostDict).Ok?
    ensures Overlay(Dict(defaults), HostLayer(hostDict)) == Ok(Dict(AfterHost(defaults, hostDict).value))
  {
    var r := AfterHost(defaults, hostDict).value;
    assert Overlay(Dict(r), []) == Ok(Dict(r));
  }

  /** Step 3: the parent's fields merged in, when the site names one. */
  function AfterParent(c: Conf, s1: map<string, Value>, own: map<string, Value>): (r: Result<map<string, Value>>)
    ensures r.Ok? ==> ParentLayer(c, own).Ok?
    ensures r.Ok? ==> r.value.Keys >= s1.Keys
  {
    var parent :- ParentLayer(c, own);
    if parent == [] then Ok(s1) else UpdateMap(s1, parent[0])
  }

  /** Step 3 is the merge of the parent's layer, if any. */
  lemma AfterParentIsOverlay(c: Conf, s1: map<string, Value>, own: map<string, Value>)
    requires AfterParent(c, s1, own).Ok?
    ensures Overlay(Dict(s1), ParentLayer(c, own).value) == Ok(Dict(AfterParent(c, s1, own).value))
  {
    var r := AfterParent(c, s1, own).value;
    assert Overlay(Dict(r), []) == Ok(Dict(r));
  }

  /** `get_site_settings(site)` with `env.host` = `hostname`: starting from
      `sites_defaults`, merge in (2) the host's `settings_overrides` under
      `settings_overrides`, (3) the `based_on` parent, one level only, and
      (4) the site's own fields. */
  function SiteSettings(c: Conf, hostname: string, site: string): (r: Result<map<string, Value>>)
    ensures HostShortname(c, hostname).None? ==> r == Err(KeyError)
    ensures HostShortname(c, hostname).Some? && site !in c.sites ==> r == Err(KeyError)
    ensures r.Ok? ==> site in c.sites && r.value.Keys >= c.sitesDefaults.Keys + c.sites[site].Keys
    ensures r.Ok? ==> forall k | k in c.sites[site] && !c.sites[site][k].Dict? :: r.value[k] == c.sites[site][k]
    ensures r.Ok? ==> HostDict(c, hostname).Ok? && ParentLayer(c, c.sites[site]).Ok?
  {
    var hostDict :- HostDict(c, hostname);
    var own :- if site in c.sites then Ok(c.sites[site]) else Err(KeyError);
    var s1 :- AfterHost(c.sitesDefaults, hostDict);
    var s2 :- AfterParent(c, s1, own);
    UpdateMap(s2, own)
  }

  /** The layers `get_site_settings` merges over `sites_defaults`, lowest first. */
  function SiteLayers(c: Conf, hostname: string, site: string): seq<map<string, Value>>
    requires SiteSettings(c, hostname, site).Ok?
  {
    HostLayer(HostDict(c, hostname).value) + ParentLayer(c, c.sites[site]).value + [c.sites[site]]
  }

  /** The resolution is the overlay of its layers on `sites_defaults`. */
  lemma SiteSettingsIsOverlay(c: Conf, hostname: string, site: string)
    requires SiteSettings(c, hostname, site).Ok?
    ensures Overlay(Dict(c.sitesDefaults), SiteLayers(c, hostname, site)) == Ok(Dict(SiteSettings(c, hostname, site).value))
  {
    var hostDict := HostDict(c, hostname).value;
    var own := c.sites[site];
    var hl := HostLayer(hostDict);
    var pl := ParentLayer(c, own).value;
    var s1 := AfterHost(c.sitesDefaults, hostDict).value;
    var s2 := AfterParent(c, s1, own).value;
    var r := SiteSettings(c, hostname, site).value;
    assert UpdateMap(s2, own) == Ok(r);
    assert Overlay(Dict(s2), [own]) == Ok(Dict(r)) by {
      assert Update(Dict(s2), own) == Ok(Dict(r));
      assert Overlay(Dict(r), []) == Ok(Dict(r));
    }
    AfterHostIsOverlay(c.sitesDefaults, hostDict);
    AfterParentIsOverlay(c, s1, own);
    OverlayAppend(Dict(c.sitesDefaults), hl, Dict(s1), pl);
    OverlayAppend(Dict(c.sitesDefaults), hl + pl, Dict(s2), [own]);
  }

  /** Precedence of the resolved settings: the site's own fields win
      everywhere; the `based_on` parent's fields survive wherever the site
      does not override them; the host's `settings_overrides` survive
      wherever neither does; and `sites_defaults` survives wherever none of
      the three does. Overriding is key by key inside nested mappings and
      wholesale for every other value. */
  lemma SitePrecedence(c: Conf, hostname: string, site: string, i: nat)
    requires SiteSettings(c, hostname, site).Ok?
    requires i < |SiteLayers(c, hostname, site)|
    ensures var layers := SiteLayers(c, hostname, site);
            var s := Dict(SiteSettings(c, hostname, site).value);
            && Shows(s, layers[i], layers[i + 1..])
            && Shows(s, c.sitesDefaults, layers)
            && Shows(s, c.sites[site], [])
  {
    var layers := SiteLayers(c, hostname, site);
    SiteSettingsIsOverlay(c, hostname, site);
    OverlayShows(c.sitesDefaults, layers, i, Dict(SiteSettings(c, hostname, site).value));
    assert layers[|layers| - 1] == c.sites[site];
  }

  /** The named site's fields always win over its `based_on` parent's, and
      the parent is followed one level only: its own `based_on` is not
      resolved, so no other site's fields can reach the result. */
  lemma BasedOnOneLevel(c: Conf, hostname: string, site: string)
    requires SiteSettings(c, hostname, site).Ok?
    requires Truthy(Get(c.sites[site], "based_on"))
    ensures var parent := c.sites[Get(c.sites[site], "based_on").s];
            var s := Dict(SiteSettings(c, hostname, site).value);
            && Shows(s, c.sites[site], [])
            && Shows(s, parent, [c.sites[site]])
            && SiteLayers(c, hostname, site) == HostLayer(HostDict(c, hostname).value) + [parent] + [c.sites[site]]
  {
    var own := c.sites[site];
    var parent := c.sites[Get(own, "based_on").s];
    var hl := HostLayer(HostDict(c, hostname).value);
    assert ParentLayer(c, own).value == [parent];
    var layers := SiteLayers(c, hostname, site);
    assert layers == hl + [parent] + [own];
    SiteSettingsIsOverlay(c, hostname, site);
    OverlayLastTwo(Dict(c.sitesDefaults), hl, parent, own);
  }

  /** `isinstance(on_hosts, str)` normalisation, then `host in on_hosts`. */
  function OnHostsContains(onHosts: Value, host: Option<string>): Result<bool> {
    Contains(if onHosts.Str? then List([onHosts]) else onHosts, host)
  }

  /** A scalar `on_hosts` names exactly one host: `on_hosts: "h"` behaves
      as `["h"]`. */
  lemma ScalarOnHosts(h: string, host: Option<string>)
    ensures OnHostsContains(Str(h), host) == OnHostsContains(List([Str(h)]), host)
    ensures OnHostsContains(Str(h), host) == Ok(host == Some(h))
  {
  }

  /** `site_on_host(site, host)`, with `env.host` = `hostname`. */
  function SiteOnHost(rev: Revision, c: Conf, hostname: string, site: string, host: Option<string>): (r: Result<bool>)
    ensures r == Ok(true) ==> SiteSettings(c, hostname, site).Ok?
    ensures rev == PackageFabfile ==> r != Err(KeyError)
    ensures rev == RootFabfile && SiteSettings(c, hostname, site).Err? ==> r == SiteSettings(c, hostname, site).PropagateFailure()
  {
    var test := (var s :- SiteSettings(c, hostname, site); OnHostsContains(Get(s, "on_hosts"), host));
    if rev == PackageFabfile && test == Err(KeyError) then Ok(false) else test
  }

  /** The two revisions agree except that stitch/fabfile.py reports a site
      whose resolution raises KeyError as not on the host. */
  lemma RevisionsAgree(c: Conf, hostname: string, site: string, host: Option<string>)
    ensures SiteOnHost(RootFabfile, c, hostname, site, host) != Err(KeyError) ==>
              SiteOnHost(PackageFabfile, c, hostname, site, host) == SiteOnHost(RootFabfile, c, hostname, site, host)
    ensures SiteOnHost(RootFabfile, c, hostname, site, host) == Err(KeyError) ==>
              SiteOnHost(PackageFabfile, c, hostname, site, host) == Ok(false)
  {
  }

  /** A resolved site lists the host in `on_hosts` as a string, a list
      element or a mapping key; a site that resolves without `on_hosts`
      makes both revisions raise (`host in None`). */
  lemma OnHostMeaning(rev: Revision, c: Conf, hostname: string, site: string, host: Option<string>)
    requires SiteSettings(c, hostname, site).Ok?
    ensures var onHosts := Get(SiteSettings(c, hostname, site).value, "on_hosts");
            && (onHosts.Str? ==> SiteOnHost(rev, c, hostname, site, host) == Ok(host == Some(onHosts.s)))
            && (onHosts.List? ==> SiteOnHost(rev, c, hostname, site, host) == Ok(OptionValue(host) in onHosts.items))
            && (onHosts.Dict? ==> SiteOnHost(rev, c, hostname, site, host) == Ok(host.Some? && host.value in onHosts.m))
            && (onHosts.Null? ==> SiteOnHost(rev, c, hostname, site, host) == Err(TypeError))
  {
    var onHosts := Get(SiteSettings(c, hostname, site).value, "on_hosts");
    OnHostsMeaning(onHosts, host);
    assert SiteOnHost(rev, c, hostname, site, host) == OnHostsContains(onHosts, host);
  }

  /** `host in on_hosts` after the string normalisation, by the shape of
      `on_hosts`; it never raises KeyError. */
  lemma OnHostsMeaning(onHosts: Value, host: Option<string>)
    ensures OnHostsContains(onHosts, host) != Err(KeyError)
    ensures onHosts.Str? ==> OnHostsContains(onHosts, host) == Ok(host == Some(onHosts.s))
    ensures onHosts.List? ==> OnHostsContains(onHosts, host) == Ok(OptionValue(host) in onHosts.items)
    ensures onHosts.Dict? ==> OnHostsContains(onHosts, host) == Ok(host.Some? && host.value in onHosts.m)
    ensures onHosts.Null? ==> OnHostsContains(onHosts, host) == Err(TypeError)
  {
  }

  /** `s` occurs in `t` in the same order, possibly with gaps. */
  predicate IsSubsequence(s: seq<string>, t: seq<string>)
    decreases |t|
  {
    if s == [] then true
    else if t == [] then false
    else if s[0] == t[0] then IsSubsequence(s[1..], t[1..])
    else IsSubsequence(s, t[1..])
  }

  lemma {:induction false} SubsequenceDropHead(s: seq<string>, t: seq<string>)
    requires s != [] && IsSubsequence(s, t)
    ensures IsSubsequence(s[1..], t)
    decreases |t|, |s|
  {
    if s[1..] != [] {
      if s[0] == t[0] {
        SubsequenceSkip(s[1..], t);
      } else {
        SubsequenceDropHead(s, t[1..]);
        SubsequenceSkip(s[1..], t);
      }
    }
  }

  /** A subsequence of the tail is a subsequence of the whole. */
  lemma SubsequenceSkip(s: seq<string>, t: seq<string>)
    requires t != [] && IsSubsequence(s, t[1..])
    ensures IsSubsequence(s, t)
    decreases |t|, |s|
  {
    if s != [] && s[0] == t[0] {
      SubsequenceDropHead(s, t[1..]);
    }
  }

  /** The names of `order` whose test came out true, kept in order; the
      first test that raised aborts the scan. */
  function Keep(order: seq<string>, tests: seq<Result<bool>>): (r: Result<seq<string>>)
    requires |tests| == |order|
    ensures r.Ok? <==> forall i | 0 <= i < |tests| :: tests[i].Ok?
    ensures r.Ok? ==> forall s :: s in r.value <==> exists i | 0 <= i < |order| :: order[i] == s && tests[i] == Ok(true)
    ensures r.Ok? ==> IsSubsequence(r.value, order)
    decreases |order|
  {
    if order == [] then Ok([])
    else
      var on :- tests[0];
      var rest :- Keep(order[1..], tests[1..]);
      assert forall i | 1 <= i < |order| :: order[i] == order[1..][i - 1] && tests[i] == tests[1..][i - 1];
      if on then
        assert ([order[0]] + rest)[0] == order[0] && ([order[0]] + rest)[1..] == rest;
        Ok([order[0]] + rest)
      else
        SubsequenceSkip(rest, order);
        Ok(rest)
  }

  /** `site_on_host` for each site of `order`, in order. */
  function OnHostTests(rev: Revision, c: Conf, hostname: string, host: Option<string>, order: seq<string>): (r: seq<Result<bool>>)
    ensures |r| == |order| && forall i | 0 <= i < |order| :: r[i] == SiteOnHost(rev, c, hostname, order[i], host)
  {
    seq(|order|, i requires 0 <= i < |order| => SiteOnHost(rev, c, hostname, order[i], host))
  }

  /** The sites of `order` that are on the host, kept in order; the first
      site whose test raises aborts the scan. */
  function SitesOnHost(rev: Revision, c: Conf, hostname: string, host: Option<string>, order: seq<string>): (r: Result<seq<string>>)
    ensures r.Ok? ==> forall s :: s in r.value <==> s in order && SiteOnHost(rev, c, hostname, s, host) == Ok(true)
    ensures r.Ok? ==> IsSubsequence(r.value, order)
    ensures r.Ok? <==> forall i | 0 <= i < |order| :: SiteOnHost(rev, c, hostname, order[i], host).Ok?
  {
    Keep(order, OnHostTests(rev, c, hostname, host, order))
  }

  /** `get_sites()`: the configured sites on the current host, in the
      configuration's iteration order. */
  function GetSites(rev: Revision, c: Conf, hostname: string): (r: Result<seq<string>>)
    ensures r.Ok? ==> forall s :: s in r.value <==> s in c.siteOrder && SiteOnHost(rev, c, hostname, s, HostShortname(c, hostname)) == Ok(true)
    ensures r.Ok? ==> IsSubsequence(r.value, c.siteOrder)
  {
    SitesOnHost(rev, c, hostname, HostShortname(c, hostname), c.siteOrder)
  }

  /** With stitch/fabfile.py, a current host that no host entry declares
      carries no site: every resolution raises KeyError, which is swallowed. */
  lemma UnknownHostHasNoSites(c: Conf, hostname: string)
    requires HostShortname(c, hostname).None?
    ensures GetSites(PackageFabfile, c, hostname) == Ok([])
  {
    assert forall s :: SiteOnHost(PackageFabfile, c, hostname, s, None) == Ok(false);
    NothingOnHost(PackageFabfile, c, hostname, None, c.siteOrder);
  }

  /** A scan in which no site is on the host keeps nothing. */
  lemma NothingOnHost(rev: Revision, c: Conf, hostname: string, host: Option<string>, order: seq<string>)
    requires forall s | s in order :: SiteOnHost(rev, c, hostname, s, host) == Ok(false)
    ensures SitesOnHost(rev, c, hostname, host, order) == Ok([])
  {
    var tests := OnHostTests(rev, c, hostname, host, order);
    assert forall i | 0 <= i < |order| :: order[i] in order;
    KeepNone(order, tests);
  }

  /** A scan whose every test comes out false keeps nothing. */
  lemma {:induction false} KeepNone(order: seq<string>, tests: seq<Result<bool>>)
    requires |tests| == |order| && forall i | 0 <= i < |tests| :: tests[i] == Ok(false)
    ensures Keep(order, tests) == Ok([])
    decreases |order|
  {
    if order != [] {
      assert tests[1..][0..] == tests[1..] && forall i | 0 <= i < |tests| - 1 :: tests[1..][i] == tests[i + 1];
      KeepNone(order[1..], tests[1..]);
    }
  }

}

=== FILE: stage.dfy ===
/** stage.py's `main`: stages each selected site on the local machine. For a
    site it resolves the effective definition (a `based_on` parent overlaid,
    one level deep, with the site's own entry), normalises `pythonpath`,
    builds the virtualenv command and the settings overrides, and names the
    three files it renders. Nothing is written here; a run is the record of
    what each staged site produced. */
module Stage {
  import opened PyValues
  import opened Config
  import opened Commands

  /** The `--sites` argument: the literal default `'ALL'`, or site names. */
  datatype SitesArg = AllSites | Named(names: seq<string>)

  /** The mapping the run iterates over: every configured site with its
      entry, or each name given with its entry, None for a name the
      configuration lacks; a name given twice counts once. */
  function Selected(c: Conf, arg: SitesArg): (r: map<string, Option<map<string, Value>>>)
    ensures arg.AllSites? ==> r.Keys == c.sites.Keys
    ensures arg.Named? ==> forall s :: s in r <==> s in arg.names
    ensures forall s | s in r :: r[s].None? <==> s !in c.sites
    ensures forall s | s in r && s in c.sites :: r[s] == Some(c.sites[s])
  {
    match arg
    case AllSites => map s | s in c.sites :: Some(c.sites[s])
    case Named(names) => map s | s in names :: if s in c.sites then Some(c.sites[s]) else None
  }

  /** A selected name without an entry stops the run at that name:
      `None.get('based_on')` raises. */
  lemma SelectedNoneRaises(c: Conf, arg: SitesArg, s: string)
    requires s in Selected(c, arg) && Selected(c, arg)[s].None?
    ensures StageSite(c, c.sites, s) == Err(TypeError)
  {
  }

  /** The local settings directory stage.py writes under. */
  const SettingsRoot := "/Users/bturner/Projects/staging/staging_settings"

  /** The host whose `project_dir` every checkout goes under. */
  const StagingHost := "rembrandt"

  /** What staging one site produced. */
  datatype Staged = Staged(
    site: string,
    definition: map<string, Value>,   // the site's entry after the `based_on` merge
    pythonpath: Value,
    projectDir: string,
    mkvirtualenv: string,
    apacheFile: string,
    wsgiFile: string,
    overrides: map<string, Value>,
    originalSettings: Value,
    settingsFile: string)

  /** `conf['sites'].get(parent)` followed by `.update(...)`: a name that is
      not a configured site gives None, whose `update` raises. */
  function ParentEntry(entries: map<string, map<string, Value>>, parent: Value): (r: Result<map<string, Value>>)
    ensures r.Ok? <==> parent.Str? && parent.s in entries
    ensures r.Ok? ==> r.value == entries[parent.s]
  {
    if parent.Str? && parent.s in entries then Ok(entries[parent.s]) else Err(TypeError)
  }

  /** The site's definition after the `based_on` step, with the site
      entries as they then stand: a site naming a parent gets the parent's
      entry overlaid with its own, and the parent's entry itself becomes
      that overlay, because `update` changes it in place. */
  function Inherit(entries: map<string, map<string, Value>>, site: string): (r: Result<(map<string, Value>, map<string, map<string, Value>>)>)
    ensures site !in entries ==> r == Err(TypeError)
    ensures r.Ok? && site in entries && !Truthy(Get(entries[site], "based_on")) ==> r.value == (entries[site], entries)
    ensures r.Ok? && site in entries && Truthy(Get(entries[site], "based_on")) ==>
              Get(entries[site], "based_on").Str? && Get(entries[site], "based_on").s in entries
    ensures r.Ok? && site in entries && Truthy(Get(entries[site], "based_on")) && Get(entries[site], "based_on").Str? ==>
              var own := entries[site];
              var parent := Get(own, "based_on").s;
              && parent in entries
              && r.value.0.Keys == entries[parent].Keys + own.Keys
              && (forall k | k in own :: r.value.0[k] == own[k])
              && (forall k | k in entries[parent] && k !in own :: r.value.0[k] == entries[parent][k])
              && r.value.1 == entries[parent := r.value.0]
  {
    if site !in entries then Err(TypeError)
    else
      var own := entries[site];
      if !Truthy(Get(own, "based_on")) then Ok((own, entries))
      else
        var parentName := Get(own, "based_on");
        var parent :- ParentEntry(entries, parentName);
        var merged := parent + own;
        Ok((merged, entries[parentName.s := merged]))
  }

  /** `sitedict.get('pythonpath', conf['sites_defaults']['pythonpath'])`,
      a single string becoming a one-element list. The default is looked up
      even when the site sets its own. */
  function PythonPath(c: Conf, definition: map<string, Value>): (r: Result<Value>)
    ensures r.Err? <==> "pythonpath" !in c.sitesDefaults
    ensures r.Ok? ==> var p := if "pythonpath" in definition then definition["pythonpath"] else c.sitesDefaults["pythonpath"];
                      r.value == if p.Str? then List([p]) else p
    ensures r.Ok? ==> !r.value.Str?
  {
    var fallback :- Index(c.sitesDefaults, "pythonpath");
    var p := if "pythonpath" in definition then definition["pythonpath"] else fallback;
    Ok(if p.Str? then List([p]) else p)
  }

  /** The settings written into the site's `settings.py`: the site's
      definition, then `sites_defaults` on top, so a default beats the
      site's own value for the same key. */
  function Overrides(c: Conf, definition: map<string, Value>): (r: map<string, Value>)
    ensures r.Keys == definition.Keys + c.sitesDefaults.Keys
    ensures forall k | k in c.sitesDefaults :: r[k] == c.sitesDefaults[k]
    ensures forall k | k in definition && k !in c.sitesDefaults :: r[k] == definition[k]
  {
    definition + c.sitesDefaults
  }

  /** Everything stage.py derives for a site from its resolved definition:
      the import path, the checkout directory under the staging host's
      `project_dir`, the `mkvirtualenv.sh` command line, and the apache,
      WSGI and settings files it renders. */
  function Finish(c: Conf, site: string, definition: map<string, Value>): (r: Result<Staged>)
    ensures "pythonpath" !in c.sitesDefaults ==> r == Err(KeyError)
    ensures "pythonpath" in c.sitesDefaults && StagingHost !in c.hosts ==> r == Err(KeyError)
    ensures r.Ok? <==>
              && "pythonpath" in c.sitesDefaults
              && StagingHost in c.hosts
              && Get(c.hosts[StagingHost], "project_dir").Str?
              && Get(definition, "project_name").Str?
              && PercentS(Get(definition, "git_branch_name")).Ok?
    ensures r.Ok? ==>
              var staged := r.value;
              && staged.site == site && staged.definition == definition
              && staged.pythonpath == PythonPath(c, definition).value
              && staged.projectDir == Get(c.hosts[StagingHost], "project_dir").s + "/" + Get(definition, "project_name").s
              && staged.mkvirtualenv == Mkvirtualenv(site, staged.projectDir, PercentS(Get(definition, "git_branch_name")).value)
              && staged.apacheFile == "httpd/" + site + ".conf"
              && staged.wsgiFile == "wsgi/sites." + site + ".conf"
              && staged.overrides == Overrides(c, definition)
              && staged.originalSettings == Get(definition, "original_settings")
              && staged.settingsFile == SettingsRoot + "/" + site + "/settings.py"
  {
    var pythonpath :- PythonPath(c, definition);
    if StagingHost !in c.hosts then Err(KeyError)
    else
    var root :- Concat(Get(c.hosts[StagingHost], "project_dir"), Str("/"));
    var projectDir :- Concat(Str(root), Get(definition, "project_name"));
    var branch :- PercentS(Get(definition, "git_branch_name"));
    Ok(Staged(
      site,
      definition,
      pythonpath,
      projectDir,
      Mkvirtualenv(site, projectDir, branch),
      "httpd/" + site + ".conf",
      "wsgi/sites." + site + ".conf",
      Overrides(c, definition),
      Get(definition, "original_settings"),
      SettingsRoot + "/" + site + "/settings.py"))
  }

  /** Two different sites never share a file stage.py renders. */
  lemma StageOutputsKeepSitesApart(c: Conf, s1: string, d1: map<string, Value>, s2: string, d2: map<string, Value>)
    requires Finish(c, s1, d1).Ok? && Finish(c, s2, d2).Ok?
    requires s1 != s2
    ensures var t1 := Finish(c, s1, d1).value;
            var t2 := Finish(c, s2, d2).value;
            && t1.apacheFile != t2.apacheFile
            && t1.wsgiFile != t2.wsgiFile
            && t1.settingsFile != t2.settingsFile
  {
    SuffixesDiffer("httpd/", s1, s2);
    PrefixesDiffer("httpd/" + s1, "httpd/" + s2, ".conf");
    SuffixesDiffer("wsgi/sites.", s1, s2);
    PrefixesDiffer("wsgi/sites." + s1, "wsgi/sites." + s2, ".conf");
    SuffixesDiffer(SettingsRoot + "/", s1, s2);
    PrefixesDiffer(SettingsRoot + "/" + s1, SettingsRoot + "/" + s2, "/settings.py");
  }

  /** `'./mkvirtualenv.sh %s %s %s' % (site, project_dir, git_branch_name)`. */
  function Mkvirtualenv(site: string, projectDir: string, branch: string): string {
    "./mkvirtualenv.sh " + site + " " + projectDir + " " + branch
  }

  /** `mkvirtualenv.sh` receives the site, the checkout directory and the
      branch as its three arguments whenever none of them contains a space. */
  lemma MkvirtualenvWords(site: string, projectDir: string, branch: string)
    requires NoSpace(site) && NoSpace(projectDir) && NoSpace(branch)
    ensures Split(Mkvirtualenv(site, projectDir, branch)) == ["./mkvirtualenv.sh", site, projectDir, branch]
  {
    var words := ["./mkvirtualenv.sh", site, projectDir, branch];
    UnwordsCons(projectDir, [branch]);
    UnwordsCons(site, [projectDir, branch]);
    UnwordsCons("./mkvirtualenv.sh", [site, projectDir, branch]);
    assert Mkvirtualenv(site, projectDir, branch) == Unwords(words);
    assert NoSpace("./mkvirtualenv.sh");
    assert forall i | 0 <= i < |words| :: NoSpace(words[i]);
    SplitJoined(words);
  }

  /** A staged record is exactly what stage.py derives for its site from
      its definition. */
  predicate Derived(c: Conf, staged: Staged) {
    Finish(c, staged.site, staged.definition) == Ok(staged)
  }

  /** One iteration of the loop, given the site entries as they stand. */
  function StageSite(c: Conf, entries: map<string, map<string, Value>>, site: string): (r: Result<(Staged, map<string, map<string, Value>>)>)
    ensures r.Ok? ==> Inherit(entries, site).Ok? && r.value.1 == Inherit(entries, site).value.1
    ensures r.Ok? ==> r.value.0.site == site && r.value.0.definition == Inherit(entries, site).value.0
    ensures r.Ok? ==> site in entries && r.value.1.Keys == entries.Keys
    ensures r.Ok? <==> Inherit(entries, site).Ok? && Finish(c, site, Inherit(entries, site).value.0).Ok?
    ensures r.Ok? ==> Derived(c, r.value.0)
    ensures Inherit(entries, site).Err? ==> r == Err(Inherit(entries, site).error)
  {
    var inherited :- Inherit(entries, site);
    var staged :- Finish(c, site, inherited.0);
    Ok((staged, inherited.1))
  }

  /** A run: the sites staged before it stopped, and the exception that
      stopped it, if any. Apache is restarted only after a complete run. */
  datatype Run = Run(staged: seq<Staged>, failure: Option<Error>) {
    predicate Restarts() {
      failure.None?
    }
  }

  /** `main` as written, over the selected names in iteration order: each
      iteration sees the entries as the previous ones left them. */
  function RunAsWritten(c: Conf, entries: map<string, map<string, Value>>, order: seq<string>): (r: Run)
    ensures |r.staged| <= |order|
    ensures r.failure.None? ==> |r.staged| == |order|
    ensures r.failure.Some? ==> |r.staged| < |order|
    ensures forall i | 0 <= i < |r.staged| :: r.staged[i].site == order[i] && order[i] in entries
    ensures forall i | 0 <= i < |r.staged| :: Derived(c, r.staged[i])
    decreases |order|
  {
    if order == [] then Run([], None)
    else
      var step := StageSite(c, entries, order[0]);
      if step.Err? then Run([], Some(step.error))
      else
        var rest := RunAsWritten(c, step.value.1, order[1..]);
        Run([step.value.0] + rest.staged, rest.failure)
  }

  /** A loop whose iterations hand a state on: each stages its site from
      the state the earlier ones left, and the first that raises stops it. */
  function Threaded<S>(step: (S, string) -> Result<(Staged, S)>, state: S, order: seq<string>): (r: Run)
    ensures |r.staged| <= |order|
    ensures r.failure.Some? ==> |r.staged| < |order|
    decreases |order|
  {
    if order == [] then Run([], None)
    else
      match step(state, order[0])
      case Err(e) => Run([], Some(e))
      case Ok((staged, after)) =>
        var rest := Threaded(step, after, order[1..]);
        Run([staged] + rest.staged, rest.failure)
  }

  /** The state the first `n` iterations of a threaded loop leave, or the
      exception the first of them to fail raises. */
  function StateAt<S>(step: (S, string) -> Result<(Staged, S)>, state: S, order: seq<string>, n: nat): Result<S>
    requires n <= |order|
    decreases n
  {
    if n == 0 then Ok(state)
    else
      var (_, after) :- step(state, order[0]);
      StateAt(step, after, order[1..], n - 1)
  }

  /** Iteration `i` of a threaded loop stages `staged` from the state before
      it and hands on the state after it. */
  ghost predicate StepStages<S>(step: (S, string) -> Result<(Staged, S)>, state: S, order: seq<string>, i: nat, staged: Staged)
    requires i < |order|
  {
    && StateAt(step, state, order, i).Ok?
    && StateAt(step, state, order, i + 1).Ok?
    && step(StateAt(step, state, order, i).value, order[i]) == Ok((staged, StateAt(step, state, order, i + 1).value))
  }

  lemma {:induction false} ThreadedThreads<S>(step: (S, string) -> Result<(Staged, S)>, state: S, order: seq<string>, i: nat)
    requires i < |Threaded(step, state, order).staged|
    ensures StepStages(step, state, order, i, Threaded(step, state, order).staged[i])
    decreases i
  {
    var first := step(state, order[0]);
    assert first.Ok?;
    var after := first.value.1;
    var rest := Threaded(step, after, order[1..]).staged;
    assert Threaded(step, state, order).staged == [first.value.0] + rest;
    assert StateAt(step, state, order, 1) == StateAt(step, after, order[1..], 0);
    if i > 0 {
      ThreadedThreads(step, after, order[1..], i - 1);
      assert StateAt(step, state, order, i) == StateAt(step, after, order[1..], i - 1);
      assert StateAt(step, state, order, i + 1) == StateAt(step, after, order[1..], i);
      assert order[i] == order[1..][i - 1];
    }
  }

  lemma {:induction false} ThreadedStops<S>(step: (S, string) -> Result<(Staged, S)>, state: S, order: seq<string>)
    requires Threaded(step, state, order).failure.Some?
    ensures var n := |Threaded(step, state, order).staged|;
            && n < |order|
            && StateAt(step, state, order, n).Ok?
            && step(StateAt(step, state, order, n).value, order[n]) == Err(Threaded(step, state, order).failure.value)
    decreases |order|
  {
    var first := step(state, order[0]);
    if first.Ok? {
      var after := first.value.1;
      var rest := Threaded(step, after, order[1..]);
      assert |Threaded(step, state, order).staged| == 1 + |rest.staged|;
      ThreadedStops(step, after, order[1..]);
      assert StateAt(step, state, order, 1 + |rest.staged|) == StateAt(step, after, order[1..], |rest.staged|);
      assert order[1 + |rest.staged|] == order[1..][|rest.staged|];
    }
  }

  /** One iteration of stage.py's loop as written. */
  function StepAsWritten(c: Conf): (map<string, map<string, Value>>, string) -> Result<(Staged, map<string, map<string, Value>>)> {
    (entries, site) => StageSite(c, entries, site)
  }

  lemma {:induction false} AsWrittenIsThreaded(c: Conf, entries: map<string, map<string, Value>>, order: seq<string>)
    ensures RunAsWritten(c, entries, order) == Threaded(StepAsWritten(c), entries, order)
    decreases |order|
  {
    if order != [] {
      assert StepAsWritten(c)(entries, order[0]) == StageSite(c, entries, order[0]);
      var first := StageSite(c, entries, order[0]);
      if first.Ok? {
        AsWrittenIsThreaded(c, first.value.1, order[1..]);
      }
    }
  }

  /** The site entries as the first `n` iterations as written leave them,
      or the exception the first of them to fail raises. */
  function EntriesAt(c: Conf, entries: map<string, map<string, Value>>, order: seq<string>, n: nat): Result<map<string, map<string, Value>>>
    requires n <= |order|
  {
    StateAt(StepAsWritten(c), entries, order, n)
  }

  /** Iteration `i` as written stages `staged` from the entries the earlier
      iterations left, and hands its own entries on to the next one. */
  predicate IterationStages(c: Conf, entries: map<string, map<string, Value>>, order: seq<string>, i: nat, staged: Staged)
    requires i < |order|
  {
    && EntriesAt(c, entries, order, i).Ok?
    && EntriesAt(c, entries, order, i + 1).Ok?
    && StageSite(c, EntriesAt(c, entries, order, i).value, order[i]) == Ok((staged, EntriesAt(c, entries, order, i + 1).value))
  }

  /** As written, every staged site was staged from the entries the
      earlier iterations left. */
  lemma RunAsWrittenThreads(c: Conf, entries: map<string, map<string, Value>>, order: seq<string>, i: nat)
    requires i < |RunAsWritten(c, entries, order).staged|
    ensures IterationStages(c, entries, order, i, RunAsWritten(c, entries, order).staged[i])
  {
    AsWrittenIsThreaded(c, entries, order);
    ThreadedThreads(StepAsWritten(c), entries, order, i);
    assert StepAsWritten(c)(EntriesAt(c, entries, order, i).value, order[i]) == StageSite(c, EntriesAt(c, entries, order, i).value, order[i]);
  }

  /** As written, a run that stops does so with the exception of the first
      iteration that raises, given the entries the earlier ones left. */
  lemma RunAsWrittenStops(c: Conf, entries: map<string, map<string, Value>>, order: seq<string>)
    requires RunAsWritten(c, entries, order).failure.Some?
    ensures var n := |RunAsWritten(c, entries, order).staged|;
            && EntriesAt(c, entries, order, n).Ok?
            && StageSite(c, EntriesAt(c, entries, order, n).value, order[n]) == Err(RunAsWritten(c, entries, order).failure.value)
  {
    AsWrittenIsThreaded(c, entries, order);
    ThreadedStops(StepAsWritten(c), entries, order);
    var n := |RunAsWritten(c, entries, order).staged|;
    assert StepAsWritten(c)(EntriesAt(c, entries, order, n).value, order[n]) == StageSite(c, EntriesAt(c, entries, order, n).value, order[n]);
  }

  /** `main`: the sites `--sites` selects, in the iteration order of the
      mapping built for them, which for `ALL` is the loaded `sites`
      mapping. Each staged site is a selected, configured one, no site is
      staged twice, and apache is restarted only when every selected site
      is configured and staged. */
  function Main(c: Conf, arg: SitesArg, order: seq<string>): (r: Run)
    requires arg.AllSites? ==> order == c.siteOrder
    requires Enumerates(order, Selected(c, arg))
    ensures |r.staged| <= |order|
    ensures forall i | 0 <= i < |r.staged| :: r.staged[i].site == order[i] && order[i] in Selected(c, arg) && order[i] in c.sites
    ensures forall i, j | 0 <= i < j < |r.staged| :: r.staged[i].site != r.staged[j].site
    ensures forall i | 0 <= i < |r.staged| :: Derived(c, r.staged[i])
    ensures r.Restarts() <==> |r.staged| == |order|
    ensures r.Restarts() ==> forall s | s in Selected(c, arg) :: s in c.sites && exists i | 0 <= i < |r.staged| :: r.staged[i].site == s
  {
    RunAsWritten(c, c.sites, order)
  }

  /** One site staged from the configuration as loaded. */
  function StageFresh(c: Conf, site: string): (r: Result<Staged>)
    ensures r.Ok? <==> StageSite(c, c.sites, site).Ok?
    ensures r.Ok? ==> r.value == StageSite(c, c.sites, site).value.0
    ensures r.Err? ==> StageSite(c, c.sites, site) == Err(r.error)
  {
    var (staged, _) :- StageSite(c, c.sites, site);
    Ok(staged)
  }

  /** A loop over independent iterations: it stops at the first one that
      raises. */
  function RunSteps(outcomes: seq<Result<Staged>>): (r: Run)
    ensures |r.staged| <= |outcomes|
    ensures r.failure.None? ==> |r.staged| == |outcomes|
    ensures forall i | 0 <= i < |r.staged| :: outcomes[i] == Ok(r.staged[i])
    ensures r.failure.Some? ==> |r.staged| < |outcomes| && outcomes[|r.staged|] == Err(r.failure.value)
    decreases |outcomes|
  {
    if outcomes == [] then Run([], None)
    else
      match outcomes[0]
      case Err(e) => Run([], Some(e))
      case Ok(staged) =>
        var rest := RunSteps(outcomes[1..]);
        Run([staged] + rest.staged, rest.failure)
  }

  /** What staging each site from the configuration as loaded gives. */
  function FreshOutcomes(c: Conf, order: seq<string>): seq<Result<Staged>> {
    seq(|order|, i requires 0 <= i < |order| => StageFresh(c, order[i]))
  }

  /** `main` with each `based_on` parent copied before it is overlaid, so
      that every site is staged from the configuration as loaded. */
  function RunFresh(c: Conf, order: seq<string>): (r: Run)
    ensures |r.staged| <= |order|
    ensures r.failure.None? ==> |r.staged| == |order|
    ensures forall i | 0 <= i < |r.staged| :: StageFresh(c, order[i]) == Ok(r.staged[i])
    ensures r.failure.Some? ==> |r.staged| < |order| && StageFresh(c, order[|r.staged|]) == Err(r.failure.value)
  {
    var outcomes := FreshOutcomes(c, order);
    assert forall i | 0 <= i < |order| :: outcomes[i] == StageFresh(c, order[i]);
    RunSteps(outcomes)
  }

  /** A site named with `--sites` that the configuration lacks stops the
      run when the loop reaches it. */
  lemma UnknownSiteStops(c: Conf, order: seq<string>, i: nat)
    requires i < |order| && order[i] !in c.sites
    ensures |RunFresh(c, order).staged| <= i
    ensures RunFresh(c, order).failure.Some?
  {
  }

  /** The staged definition of a site that names a parent: the parent's
      entry with the site's own fields on top; of one that names none: its
      own entry. */
  lemma FreshDefinition(c: Conf, order: seq<string>, i: nat)
    requires i < |RunFresh(c, order).staged|
    ensures var d := RunFresh(c, order).staged[i].definition;
            var own := c.sites[order[i]];
            && order[i] in c.sites
            && (!Truthy(Get(own, "based_on")) ==> d == own)
            && (Truthy(Get(own, "based_on")) ==>
                  && Get(own, "based_on").Str? && Get(own, "based_on").s in c.sites
                  && d == c.sites[Get(own, "based_on").s] + own)
  {
    assert StageSite(c, c.sites, order[i]).Ok?;
  }

  /** The run as written and the corrected run agree while no `based_on`
      parent has been overlaid yet. */
  lemma {:induction false} AgreeWithoutInheritance(c: Conf, order: seq<string>)
    requires forall i | 0 <= i < |order| && order[i] in c.sites :: !Truthy(Get(c.sites[order[i]], "based_on"))
    ensures RunAsWritten(c, c.sites, order) == RunFresh(c, order)
    decreases |order|
  {
    if order != [] {
      AgreeWithoutInheritance(c, order[1..]);
      assert FreshOutcomes(c, order)[1..] == FreshOutcomes(c, order[1..]);
    }
  }

  /** A staging configuration in which `child` is based on `base`. */
  function Inheriting(): Conf {
    Conf(
      map[StagingHost := map["project_dir" := Str("/srv")]], [StagingHost], map[],
      map["base" := map["project_name" := Str("b")],
          "child" := map["based_on" := Str("base"), "project_name" := Str("c")]],
      ["child", "base"],
      map["pythonpath" := List([])],
      map[], [])
  }

  /** Where the checkout of a definition goes:
      `<project_dir of the staging host>/<project_name>`. */
  lemma FinishProjectDir(c: Conf, site: string, d: map<string, Value>)
    requires "pythonpath" in c.sitesDefaults
    requires StagingHost in c.hosts && Get(c.hosts[StagingHost], "project_dir").Str?
    requires Get(d, "project_name").Str? && !Get(d, "git_branch_name").List? && !Get(d, "git_branch_name").Dict?
    ensures Finish(c, site, d).Ok?
    ensures Finish(c, site, d).value.projectDir == Get(c.hosts[StagingHost], "project_dir").s + "/" + Get(d, "project_name").s
  {
  }

  /** In `Inheriting()`, staging `child` overlays it on `base` and leaves
      that overlay as `base`'s entry. */
  lemma ChildStages(c: Conf)
    requires c == Inheriting()
    ensures StageSite(c, c.sites, "child").Ok?
    ensures StageSite(c, c.sites, "child").value.1 == c.sites["base" := c.sites["base"] + c.sites["child"]]
  {
    var merged := c.sites["base"] + c.sites["child"];
    assert Get(merged, "project_name") == Str("c");
    assert Get(merged, "git_branch_name") == Null;
    assert Get(c.hosts[StagingHost], "project_dir") == Str("/srv");
    assert Inherit(c.sites, "child") == Ok((merged, c.sites["base" := merged]));
    FinishProjectDir(c, "child", merged);
  }

  /** In `Inheriting()`, `base` staged from the configuration as loaded
      checks out its own project. */
  lemma BaseStagesFresh(c: Conf)
    requires c == Inheriting()
    ensures StageFresh(c, "base").Ok? && StageFresh(c, "base").value.projectDir == "/srv/b"
  {
    var base := c.sites["base"];
    assert Get(base, "git_branch_name") == Null;
    assert Get(c.hosts[StagingHost], "project_dir") == Str("/srv");
    assert Inherit(c.sites, "base") == Ok((base, c.sites));
    FinishProjectDir(c, "base", base);
  }

  /** In `Inheriting()`, `base` staged after `child` checks out `child`'s
      project. */
  lemma BaseStagesAfterChild(c: Conf, after: map<string, map<string, Value>>)
    requires c == Inheriting() && after == c.sites["base" := c.sites["base"] + c.sites["child"]]
    ensures StageSite(c, after, "base").Ok? && StageSite(c, after, "base").value.0.projectDir == "/srv/c"
  {
    var merged := c.sites["base"] + c.sites["child"];
    assert Get(merged, "project_name") == Str("c");
    assert Get(merged, "based_on") == Str("base");
    assert Get(merged, "git_branch_name") == Null;
    assert Get(c.hosts[StagingHost], "project_dir") == Str("/srv");
    InheritFromItself(after, "base");
    FinishProjectDir(c, "base", merged);
    assert StageSite(c, after, "base") == Ok((Finish(c, "base", merged).value, after));
  }

  /** A site whose entry names itself as its parent inherits nothing new. */
  lemma InheritFromItself(entries: map<string, map<string, Value>>, site: string)
    requires site in entries && Get(entries[site], "based_on") == Str(site)
    ensures Inherit(entries, site) == Ok((entries[site], entries))
  {
    var own := entries[site];
    assert own + own == own;
    assert entries[site := own] == entries;
  }

  /** Staging `child` before `base` as written rewrites `base`'s entry, so
      `base` is then staged with `child`'s project; staged from the
      configuration as loaded, it keeps its own. */
  lemma ChildRewritesBase(c: Conf, order: seq<string>)
    requires c == Inheriting() && order == ["child", "base"]
    ensures |RunFresh(c, order).staged| == 2 && RunFresh(c, order).staged[1].projectDir == "/srv/b"
    ensures |RunAsWritten(c, c.sites, order).staged| == 2 && RunAsWritten(c, c.sites, order).staged[1].projectDir == "/srv/c"
  {
    var after := c.sites["base" := c.sites["base"] + c.sites["child"]];
    ChildStages(c);
    BaseStagesFresh(c);
    BaseStagesAfterChild(c, after);
    TwoSiteRuns(c, order);
  }

  /** Two sites that both stage: both runs stage both, the second as
      written from the entries the first left behind. */
  lemma TwoSiteRuns(c: Conf, order: seq<string>)
    requires |order| == 2
    requires StageSite(c, c.sites, order[0]).Ok? && StageFresh(c, order[1]).Ok?
    requires StageSite(c, StageSite(c, c.sites, order[0]).value.1, order[1]).Ok?
    ensures |RunFresh(c, order).staged| == 2 && RunFresh(c, order).staged[1] == StageFresh(c, order[1]).value
    ensures var after := StageSite(c, c.sites, order[0]).value.1;
            && |RunAsWritten(c, c.sites, order).staged| == 2
            && RunAsWritten(c, c.sites, order).staged[1] == StageSite(c, after, order[1]).value.0
  {
    var first := StageSite(c, c.sites, order[0]).value;
    var second := StageSite(c, first.1, order[1]).value;
    assert StageFresh(c, order[0]).Ok?;
    assert order[1..][0] == order[1] && order[1..][1..] == [];
    var tail := RunAsWritten(c, first.1, order[1..]);
    assert RunAsWritten(c, second.1, order[1..][1..]) == Run([], None);
    assert tail.staged == [second.0];
    assert RunAsWritten(c, c.sites, order).staged == [first.0] + tail.staged;
  }
}

=== FILE: targets.dfy ===
/** Per-site derived paths and the provisioning decision: where a site's
    checkout, requirements file and generated configuration go, for the
    stitch/fabfile.py operations and for the root fabfile.py ones. */
module Targets {
  import opened PyValues
  import opened Config
  import opened Hosts
  import opened Sites
  import opened Commands

  /** A file or directory name with no '/' in it. */
  predicate PlainName(s: string) {
    s != "" && '/' !in s
  }

  /** A directory path to which `os.path.join` adds exactly one '/'. */
  predicate DirPath(s: string) {
    s != "" && s[|s| - 1] != '/'
  }

  lemma PlainNameConcat(a: string, b: string)
    requires PlainName(a) && '/' !in b
    ensures PlainName(a + b)
  {
    assert forall i | 0 <= i < |a + b| :: (a + b)[i] == if i < |a| then a[i] else b[i - |a|];
  }

  lemma JoinIsDirPath(a: string, b: string)
    requires DirPath(a) && PlainName(b)
    ensures Join(a, b) == a + "/" + b
    ensures DirPath(Join(a, b))
  {
    assert b[0] in b;
    assert b[|b| - 1] in b;
  }

  /** `"%s/%s/%s" % (virtualenv_dir, site, project_name)`: the site's
      checkout, as setup_virtualenv and pip_install of both fabfiles form it. */
  function ProjectDir(hostDict: map<string, Value>, site: string, settings: map<string, Value>): Result<string> {
    var venv :- PercentS(Get(hostDict, "virtualenv_dir"));
    var project :- PercentS(Get(settings, "project_name"));
    Ok(venv + "/" + site + "/" + project)
  }

  /** The checkout is the project directory inside the site's directory
      inside the virtualenv root. */
  lemma ProjectDirLayout(hostDict: map<string, Value>, site: string, settings: map<string, Value>)
    requires Get(hostDict, "virtualenv_dir").Str? && DirPath(Get(hostDict, "virtualenv_dir").s)
    requires PlainName(site)
    requires Get(settings, "project_name").Str? && PlainName(Get(settings, "project_name").s)
    ensures ProjectDir(hostDict, site, settings).Ok?
    ensures var p := ProjectDir(hostDict, site, settings).value;
            && DirPath(p)
            && Basename(p) == Get(settings, "project_name").s
            && Basename(DirPart(p)) == site
            && DirPart(DirPart(p)) == Get(hostDict, "virtualenv_dir").s
  {
    var venv := Get(hostDict, "virtualenv_dir").s;
    var project := Get(settings, "project_name").s;
    JoinIsDirPath(venv, site);
    JoinIsDirPath(Join(venv, site), project);
    JoinSplits(venv, site);
    JoinSplits(Join(venv, site), project);
    assert ProjectDir(hostDict, site, settings).value == Join(Join(venv, site), project);
  }

  /** The requirements file pip_install installs from, in both fabfiles. */
  function Requirements(hostDict: map<string, Value>, site: string, settings: map<string, Value>): (r: Result<string>)
    ensures r.Ok? <==> ProjectDir(hostDict, site, settings).Ok?
    ensures r.Ok? && DirPath(ProjectDir(hostDict, site, settings).value) ==>
              && DirPart(r.value) == ProjectDir(hostDict, site, settings).value
              && Basename(r.value) == "requirements.txt"
  {
    var dir :- ProjectDir(hostDict, site, settings);
    FileInDir(dir, "requirements.txt");
    Ok(dir + "/" + "requirements.txt")
  }

  lemma FileInDir(dir: string, name: string)
    requires PlainName(name)
    ensures DirPath(dir) ==> DirPart(dir + "/" + name) == dir && Basename(dir + "/" + name) == name
  {
    if DirPath(dir) {
      JoinIsDirPath(dir, name);
      JoinSplits(dir, name);
    }
  }

  /** `get_site_settings(site).get('pythonpath').get(host, [])`: the import
      path entries configured for this host. */
  function PyPathFor(settings: map<string, Value>, host: string): (r: Result<Value>)
    ensures r.Ok? <==> Get(settings, "pythonpath").Dict?
    ensures r.Ok? && host !in Get(settings, "pythonpath").m ==> r.value == List([])
    ensures r.Ok? && host in Get(settings, "pythonpath").m ==> r.value == Get(settings, "pythonpath").m[host]
  {
    var pp := Get(settings, "pythonpath");
    if pp.Dict? then Ok(if host in pp.m then pp.m[host] else List([])) else Err(TypeError)
  }

  /** What stitch/fabfile.py's generate_confs and generate_settings derive
      for a site: template variables that come from configuration, and the
      paths of the three generated files. */
  datatype PackageContext = PackageContext(
    pyPath: Value,
    virtualenvDir: string,
    apacheConf: string,
    wsgiConf: string,
    settingsDir: string,
    settingsFile: string,
    overrides: map<string, Value>,
    originalSettings: Value)

  /** `settings['settings_overrides'].iteritems()`: the overrides written
      into the generated `settings.py`. */
  function OverridesOf(settings: map<string, Value>): (r: Result<map<string, Value>>)
    ensures SettingsOverrides !in settings ==> r == Err(KeyError)
    ensures r.Ok? <==> SettingsOverrides in settings && settings[SettingsOverrides].Dict?
    ensures r.Ok? ==> Dict(r.value) == settings[SettingsOverrides]
  {
    var v :- Index(settings, SettingsOverrides);
    if v.Dict? then Ok(v.m) else Err(TypeError)
  }

  function PackageConfs(c: Conf, hostname: string, site: string): (r: Result<PackageContext>)
    ensures HostShortname(c, hostname).None? ==> r == Err(KeyError)
    ensures r.Ok? ==>
              && HostDict(c, hostname).Ok? && SiteSettings(c, hostname, site).Ok?
              && r == PackageContextOf(HostDict(c, hostname).value, HostShortname(c, hostname).value, site, SiteSettings(c, hostname, site).value)
  {
    var host := HostShortname(c, hostname);
    var hostDict :- HostDict(c, hostname);
    var _ :- JoinValues(Get(hostDict, "apache_dir"), OptionValue(host));
    var settings :- SiteSettings(c, hostname, site);
    PackageContextOf(hostDict, host.value, site, settings)
  }

  /** generate_confs and generate_settings once the host record and the
      site's settings are resolved. */
  function PackageContextOf(hostDict: map<string, Value>, host: string, site: string, settings: map<string, Value>): (r: Result<PackageContext>)
    ensures r.Ok? ==> PyPathFor(settings, host).Ok? && r.value.pyPath == PyPathFor(settings, host).value
    ensures r.Ok? ==> SettingsOverrides in settings && Dict(r.value.overrides) == settings[SettingsOverrides]
    ensures r.Ok? ==> r.value.originalSettings == Get(settings, "original_settings")
    ensures r.Ok? ==> Get(hostDict, "apache_dir").Str? && r.value.apacheConf == Join(Join(Get(hostDict, "apache_dir").s, host), site + ".conf")
    ensures r.Ok? ==> Get(hostDict, "wsgi_dir").Str? && r.value.wsgiConf == Join(Get(hostDict, "wsgi_dir").s, site + ".conf")
    ensures r.Ok? ==> Get(hostDict, "virtualenv_dir").Str? && r.value.virtualenvDir == Join(Get(hostDict, "virtualenv_dir").s, site)
    ensures r.Ok? ==> Get(hostDict, "staging_settings").Str? && r.value.settingsDir == Join(Get(hostDict, "staging_settings").s, site)
    ensures r.Ok? ==> r.value.settingsFile == Join(r.value.settingsDir, "settings.py")
  {
    var apacheDir :- JoinValues(Get(hostDict, "apache_dir"), Str(host));
    var pyPath :- PyPathFor(settings, host);
    var virtualenvDir :- JoinValues(Get(hostDict, "virtualenv_dir"), Str(site));
    var wsgiConf :- JoinValues(Get(hostDict, "wsgi_dir"), Str(site + ".conf"));
    var settingsDir :- JoinValues(Get(hostDict, "staging_settings"), Str(site));
    var overrides :- OverridesOf(settings);
    Ok(PackageContext(pyPath, virtualenvDir, Join(apacheDir, site + ".conf"), wsgiConf, settingsDir, Join(settingsDir, "settings.py"),
                      overrides, Get(settings, "original_settings")))
  }

  /** Each generated file of stitch/fabfile.py carries the site's name:
      `<site>.conf` in the host's apache directory and in the WSGI
      directory, and `settings.py` in the site's settings directory. */
  lemma PackageConfNames(hostDict: map<string, Value>, host: string, site: string, settings: map<string, Value>)
    requires PackageContextOf(hostDict, host, site, settings).Ok?
    requires PlainName(site)
    ensures var t := PackageContextOf(hostDict, host, site, settings).value;
            && Basename(t.apacheConf) == site + ".conf"
            && Basename(t.wsgiConf) == site + ".conf"
            && Basename(t.settingsFile) == "settings.py"
            && (DirPath(t.settingsDir) ==> DirPart(t.settingsFile) == t.settingsDir)
  {
    var t := PackageContextOf(hostDict, host, site, settings).value;
    var apacheDir := Join(Get(hostDict, "apache_dir").s, host);
    PlainNameConcat(site, ".conf");
    JoinBasename(apacheDir, site + ".conf");
    JoinBasename(Get(hostDict, "wsgi_dir").s, site + ".conf");
    JoinBasename(t.settingsDir, "settings.py");
    if DirPath(t.settingsDir) {
      JoinSplits(t.settingsDir, "settings.py");
    }
  }

  /** Two different plain names joined to the same directory give two
      different paths. */
  lemma JoinKeepsNamesApart(dir: string, a: string, b: string)
    requires PlainName(a) && PlainName(b) && a != b
    ensures Join(dir, a) != Join(dir, b)
  {
    assert a[0] in a && b[0] in b;
    if dir == "" || dir[|dir| - 1] == '/' {
      SuffixesDiffer(dir, a, b);
    } else {
      SuffixesDiffer(dir + "/", a, b);
    }
  }

  /** A plain name joined to any directory ends in that name, so the result
      takes exactly one more '/' when something is joined to it. */
  lemma JoinIsDirPathAny(dir: string, name: string)
    requires PlainName(name)
    ensures DirPath(Join(dir, name))
  {
    assert name[0] in name;
    assert name[|name| - 1] in name;
  }

  /** Two different sites never share a file or a directory that stitch's
      generate_confs and generate_settings write or name. */
  lemma PackageTargetsKeepSitesApart(hostDict: map<string, Value>, host: string,
                                     s1: string, settings1: map<string, Value>, s2: string, settings2: map<string, Value>)
    requires PackageContextOf(hostDict, host, s1, settings1).Ok? && PackageContextOf(hostDict, host, s2, settings2).Ok?
    requires PlainName(s1) && PlainName(s2) && s1 != s2
    ensures var t1 := PackageContextOf(hostDict, host, s1, settings1).value;
            var t2 := PackageContextOf(hostDict, host, s2, settings2).value;
            && t1.apacheConf != t2.apacheConf
            && t1.wsgiConf != t2.wsgiConf
            && t1.settingsDir != t2.settingsDir
            && t1.settingsFile != t2.settingsFile
            && t1.virtualenvDir != t2.virtualenvDir
  {
    var t1 := PackageContextOf(hostDict, host, s1, settings1).value;
    var t2 := PackageContextOf(hostDict, host, s2, settings2).value;
    assert PlainName("settings.py");
    PlainNameConcat(s1, ".conf");
    PlainNameConcat(s2, ".conf");
    PrefixesDiffer(s1, s2, ".conf");
    JoinKeepsNamesApart(Join(Get(hostDict, "apache_dir").s, host), s1 + ".conf", s2 + ".conf");
    JoinKeepsNamesApart(Get(hostDict, "wsgi_dir").s, s1 + ".conf", s2 + ".conf");
    JoinKeepsNamesApart(Get(hostDict, "staging_settings").s, s1, s2);
    JoinKeepsNamesApart(Get(hostDict, "virtualenv_dir").s, s1, s2);
    JoinIsDirPathAny(Get(hostDict, "staging_settings").s, s1);
    JoinIsDirPathAny(Get(hostDict, "staging_settings").s, s2);
    JoinSameNameApart(t1.settingsDir, t2.settingsDir, "settings.py");
  }

  /** One plain name joined to two different directories, neither ending
      in '/', gives two different paths. */
  lemma JoinSameNameApart(d1: string, d2: string, name: string)
    requires DirPath(d1) && DirPath(d2) && d1 != d2 && PlainName(name)
    ensures Join(d1, name) != Join(d2, name)
  {
    JoinIsDirPath(d1, name);
    JoinIsDirPath(d2, name);
    PrefixesDiffer(d1, d2, "/");
    PrefixesDiffer(d1 + "/", d2 + "/", name);
    assert d1 + "/" + name == (d1 + "/") + name;
  }

  /** Whatever directory it is joined to, a plain name stays the last
      component of the path. */
  lemma JoinBasename(dir: string, name: string)
    requires PlainName(name)
    ensures Basename(Join(dir, name)) == name
  {
    assert name[0] in name;
    if dir == "" || dir[|dir| - 1] == '/' {
      BasenameAfterSlash(dir, name);
    } else {
      JoinSplits(dir, name);
    }
  }

  lemma {:induction false} BasenameAfterSlash(dir: string, name: string)
    requires dir == "" || dir[|dir| - 1] == '/'
    requires '/' !in name
    ensures Basename(dir + name) == name
    decreases |name|
  {
    if name == [] {
      assert dir + name == dir;
    } else {
      var init := name[..|name| - 1];
      assert '/' !in init by {
        forall i | 0 <= i < |init| ensures init[i] != '/' {
          assert init[i] == name[i];
        }
      }
      BasenameAfterSlash(dir, init);
      assert name[|name| - 1] in name;
      assert (dir + name)[..|dir + name| - 1] == dir + init;
    }
  }

  /** Where the root fabfile.py's stage() uploads a site's three generated
      files: a directory and the file's name in it. */
  datatype RootTargets = RootTargets(
    apacheDir: string,
    apacheFile: string,
    wsgiDir: string,
    wsgiFile: string,
    settingsDir: string,
    settingsFile: string,
    pyPath: Value,
    overrides: map<string, Value>,
    originalSettings: Value)

  /** `'/'.join((a, b))` on loaded values. */
  function SlashJoin(a: Value, b: Value): Result<string> {
    if a.Str? && b.Str? then Ok(a.s + "/" + b.s) else Err(TypeError)
  }

  /** set_apache_conf, set_wsgi_conf and set_settings_overrides: the apache
      conf `<site>.conf` goes to `<apache_dir>/<host>`, the WSGI conf
      `sites.<site>.conf` to `wsgi_dir`, and `settings.py` to
      `<staging_settings>/<site>`. */
  function RootConfs(c: Conf, hostname: string, site: string): (r: Result<RootTargets>)
    ensures HostShortname(c, hostname).None? ==> r == Err(KeyError)
    ensures r.Ok? ==>
              && HostDict(c, hostname).Ok? && SiteSettings(c, hostname, site).Ok?
              && r == RootTargetsOf(HostDict(c, hostname).value, HostShortname(c, hostname).value, site, SiteSettings(c, hostname, site).value)
  {
    var host := HostShortname(c, hostname);
    var hostDict :- HostDict(c, hostname);
    var _ :- SlashJoin(Get(hostDict, "apache_dir"), OptionValue(host));
    var _ :- SlashJoin(Get(hostDict, "staging_settings"), Str(site));
    var settings :- SiteSettings(c, hostname, site);
    RootTargetsOf(hostDict, host.value, site, settings)
  }

  /** The three targets once the host record and the site's settings are
      resolved. */
  function RootTargetsOf(hostDict: map<string, Value>, host: string, site: string, settings: map<string, Value>): (r: Result<RootTargets>)
    ensures r.Ok? ==> Basename(Join(r.value.apacheDir, r.value.apacheFile)) == Basename(site + ".conf")
    ensures r.Ok? ==> Basename(Join(r.value.wsgiDir, r.value.wsgiFile)) == Basename("sites." + site + ".conf")
    ensures r.Ok? ==> r.value.settingsFile == "settings.py"
    ensures r.Ok? ==> Get(hostDict, "staging_settings").Str? && r.value.settingsDir == Get(hostDict, "staging_settings").s + "/" + site
    ensures r.Ok? ==> r.value.apacheFile == site + ".conf" && r.value.wsgiFile == "sites." + site + ".conf"
    ensures r.Ok? ==> Get(hostDict, "apache_dir").Str? && r.value.apacheDir == Get(hostDict, "apache_dir").s + "/" + host
    ensures r.Ok? ==> Get(hostDict, "wsgi_dir").Str? && r.value.wsgiDir == Get(hostDict, "wsgi_dir").s
    ensures r.Ok? ==> SettingsOverrides in settings && Dict(r.value.overrides) == settings[SettingsOverrides]
    ensures r.Ok? ==> PyPathFor(settings, host).Ok? && r.value.pyPath == PyPathFor(settings, host).value
  {
    var apacheDir :- SlashJoin(Get(hostDict, "apache_dir"), Str(host));
    var wsgiDir := Get(hostDict, "wsgi_dir");
    var settingsDir :- SlashJoin(Get(hostDict, "staging_settings"), Str(site));
    var pyPath :- PyPathFor(settings, host);
    var overrides :- OverridesOf(settings);
    if !wsgiDir.Str? then Err(TypeError)
    else
      JoinBasenameAny(apacheDir, site + ".conf");
      JoinBasenameAny(wsgiDir.s, "sites." + site + ".conf");
      Ok(RootTargets(apacheDir, site + ".conf", wsgiDir.s, "sites." + site + ".conf", settingsDir, "settings.py",
                     pyPath, overrides, Get(settings, "original_settings")))
  }

  lemma JoinBasenameAny(dir: string, name: string)
    ensures Basename(Join(dir, name)) == Basename(name)
  {
    if |name| > 0 && name[0] == '/' {
    } else if dir == "" || dir[|dir| - 1] == '/' {
      BasenameOfSuffix(dir, name);
    } else {
      BasenameOfSuffix(dir + "/", name);
      assert dir + "/" + name == (dir + "/") + name;
    }
  }

  /** Appending after a '/' leaves the base name of the appended part. */
  lemma {:induction false} BasenameOfSuffix(dir: string, name: string)
    requires dir == "" || dir[|dir| - 1] == '/'
    ensures Basename(dir + name) == Basename(name)
    decreases |name|
  {
    if name == [] {
      assert dir + name == dir;
    } else {
      var init := name[..|name| - 1];
      assert (dir + name)[..|dir + name| - 1] == dir + init;
      assert (dir + name)[|dir + name| - 1] == name[|name| - 1];
      if name[|name| - 1] != '/' {
        BasenameOfSuffix(dir, init);
      }
    }
  }

  /** Two different sites never share a generated file under the root
      fabfile.py. */
  lemma RootConfsKeepSitesApart(c: Conf, hostname: string, s1: string, s2: string)
    requires RootConfs(c, hostname, s1).Ok? && RootConfs(c, hostname, s2).Ok?
    requires s1 != s2
    ensures var t1 := RootConfs(c, hostname, s1).value;
            var t2 := RootConfs(c, hostname, s2).value;
            && t1.apacheDir == t2.apacheDir && t1.apacheFile != t2.apacheFile
            && t1.wsgiDir == t2.wsgiDir && t1.wsgiFile != t2.wsgiFile
            && t1.settingsDir != t2.settingsDir
  {
    var hostDict := HostDict(c, hostname).value;
    var host := HostShortname(c, hostname).value;
    TargetsKeepSitesApart(hostDict, host, s1, SiteSettings(c, hostname, s1).value, s2, SiteSettings(c, hostname, s2).value);
  }

  lemma TargetsKeepSitesApart(hostDict: map<string, Value>, host: string,
                              s1: string, settings1: map<string, Value>, s2: string, settings2: map<string, Value>)
    requires RootTargetsOf(hostDict, host, s1, settings1).Ok? && RootTargetsOf(hostDict, host, s2, settings2).Ok?
    requires s1 != s2
    ensures var t1 := RootTargetsOf(hostDict, host, s1, settings1).value;
            var t2 := RootTargetsOf(hostDict, host, s2, settings2).value;
            && t1.apacheDir == t2.apacheDir && t1.apacheFile != t2.apacheFile
            && t1.wsgiDir == t2.wsgiDir && t1.wsgiFile != t2.wsgiFile
            && t1.settingsDir != t2.settingsDir
  {
    var prefix := Get(hostDict, "staging_settings").s + "/";
    SuffixesDiffer(prefix, s1, s2);
    PrefixesDiffer(s1, s2, ".conf");
    SuffixesDiffer("sites.", s1, s2);
    PrefixesDiffer("sites." + s1, "sites." + s2, ".conf");
  }

  /** The checkout step of setup_virtualenv: none for `master`, otherwise
      `git_checkout(proj_dir, git_parent, git_branch_name)`. */
  function CheckoutStep(projDir: string, settings: map<string, Value>): (r: Result<seq<string>>)
    ensures Get(settings, "git_branch_name") == Str("master") ==> r == Ok([])
    ensures Get(settings, "git_branch_name") != Str("master") ==>
              && (r.Ok? <==> PercentS(Get(settings, "git_parent")).Ok? && PercentS(Get(settings, "git_branch_name")).Ok?)
              && (r.Ok? ==> r.value == [GitCheckout(projDir, PercentS(Get(settings, "git_parent")).value,
                                                    PercentS(Get(settings, "git_branch_name")).value)])
  {
    if Get(settings, "git_branch_name") == Str("master") then Ok([])
    else
      var parent :- PercentS(Get(settings, "git_parent"));
      var branch :- PercentS(Get(settings, "git_branch_name"));
      Ok([GitCheckout(projDir, parent, branch)])
  }

  function InVirtualenvAll(site: string, commands: seq<string>): (r: seq<string>)
    ensures |r| == |commands|
    ensures forall i | 0 <= i < |commands| :: r[i] == InVirtualenv(site, commands[i])
  {
    if commands == [] then [] else [InVirtualenv(site, commands[0])] + InVirtualenvAll(site, commands[1..])
  }

  /** The checkout of a fresh setup runs in the site's virtualenv, changes
      to the project directory and creates the configured branch from the
      configured parent, whenever none of these contains a space. */
  lemma CheckoutInProject(site: string, stagingDir: string, venv: string, projDir: string, settings: map<string, Value>)
    requires FreshCheckout(site, stagingDir, venv, projDir, settings).Ok?
    requires Get(settings, "git_branch_name") != Str("master")
    requires NoSpace(site) && NoSpace(projDir)
    requires NoSpace(PercentS(Get(settings, "git_parent")).value) && NoSpace(PercentS(Get(settings, "git_branch_name")).value)
    ensures var parent := PercentS(Get(settings, "git_parent")).value;
            var branch := PercentS(Get(settings, "git_branch_name")).value;
            Split(FreshCheckout(site, stagingDir, venv, projDir, settings).value[1]) ==
              ["workon", site + ";", "cdvirtualenv;", "cd", projDir + ";", "git", "checkout", "-b", branch, parent + "/" + branch]
  {
    var parent := PercentS(Get(settings, "git_parent")).value;
    var branch := PercentS(Get(settings, "git_branch_name")).value;
    var checkout := GitCheckout(projDir, parent, branch);
    CheckoutWords(projDir, parent, branch);
    InVirtualenvWords(site, checkout);
  }

  /** What setup_virtualenv looks up before deciding whether to clone: the
      staging directory under the host's `code_dir`, the host's virtualenv
      directory, the project directory and the site's settings. */
  datatype SetupInputs = SetupInputs(stagingDir: string, venv: string, projDir: string, settings: map<string, Value>)

  /** The lookups of the root fabfile.py's setup_virtualenv, in its order. */
  function ResolveSetup(c: Conf, hostname: string, site: string): (r: Result<SetupInputs>)
    ensures HostShortname(c, hostname).None? ==> r == Err(KeyError)
    ensures r.Ok? ==>
              && HostDict(c, hostname).Ok?
              && SiteSettings(c, hostname, site) == Ok(r.value.settings)
              && var hostDict := HostDict(c, hostname).value;
              && Get(hostDict, "code_dir").Str?
              && r.value.stagingDir == Get(hostDict, "code_dir").s + "/staging"
              && PercentS(Get(hostDict, "virtualenv_dir")) == Ok(r.value.venv)
              && ProjectDir(hostDict, site, r.value.settings) == Ok(r.value.projDir)
  {
    var hostDict :- HostDict(c, hostname);
    var stagingDir :- Concat(Get(hostDict, "code_dir"), Str("/staging"));
    var venv :- PercentS(Get(hostDict, "virtualenv_dir"));
    var settings :- SiteSettings(c, hostname, site);
    var projDir :- ProjectDir(hostDict, site, settings);
    Ok(SetupInputs(stagingDir, venv, projDir, settings))
  }

  /** `is_local(env.host)`, which the root fabfile.py's `local_or_remote`
      and `local_or_remote_exists` ask before every command and probe: it
      raises KeyError when no `testing` role is defined. */
  function HostIsLocal(c: Conf, hostname: string): (r: Result<bool>)
    ensures RoleDefs(c).Err? ==> r == Err(RoleDefs(c).error)
    ensures RoleDefs(c).Ok? ==> r == IsLocal(RoleDefs(c).value, hostname)
    ensures r.Err? && RoleDefs(c).Ok? ==> r == Err(KeyError) && "testing" !in RoleDefs(c).value
  {
    var roledefs :- RoleDefs(c);
    IsLocal(roledefs, hostname)
  }

  /** The root fabfile.py's setup_virtualenv for one site of `get_sites()`,
      given whether the project directory already exists: the commands it
      runs inside the site's virtualenv. */
  function ProvisionPlan(c: Conf, hostname: string, site: string, projectExists: bool): (r: Result<seq<string>>)
    ensures HostShortname(c, hostname).None? ==> r == Err(KeyError)
    ensures ResolveSetup(c, hostname, site).Ok? && HostIsLocal(c, hostname).Err? ==> r == Err(HostIsLocal(c, hostname).error)
    ensures r.Ok? && projectExists ==> r.value == []
    ensures r.Ok? ==> SiteSettings(c, hostname, site).Ok? && HostIsLocal(c, hostname).Ok?
  {
    var inputs :- ResolveSetup(c, hostname, site);
    var _ :- HostIsLocal(c, hostname);
    if projectExists then Ok([])
    else FreshCheckout(site, inputs.stagingDir, inputs.venv, inputs.projDir, inputs.settings)
  }

  /** The commands that set up a site whose project directory is missing:
      clone, check out unless the branch is `master`, and add the staging
      settings directory and the site's directory to the virtualenv's
      path, all inside the site's virtualenv. */
  function FreshCheckout(site: string, stagingDir: string, venv: string, projDir: string, settings: map<string, Value>): (r: Result<seq<string>>)
    ensures r.Ok? <==> PercentS(Get(settings, "clone_url")).Ok? && CheckoutStep(projDir, settings).Ok?
    ensures r.Ok? ==>
              && (|r.value| == 3 <==> Get(settings, "git_branch_name") == Str("master"))
              && (|r.value| == 3 || |r.value| == 4)
              && r.value[0] == InVirtualenv(site, GitClone(PercentS(Get(settings, "clone_url")).value))
              && (|r.value| == 4 ==>
                    r.value[1] == InVirtualenv(site, GitCheckout(projDir, PercentS(Get(settings, "git_parent")).value,
                                                                 PercentS(Get(settings, "git_branch_name")).value)))
              && r.value[|r.value| - 2] == InVirtualenv(site, "add2virtualenv " + stagingDir)
              && r.value[|r.value| - 1] == InVirtualenv(site, "add2virtualenv " + venv + "/" + site)
  {
    var url :- PercentS(Get(settings, "clone_url"));
    var checkout :- CheckoutStep(projDir, settings);
    Ok(InVirtualenvAll(site, [GitClone(url)] + checkout + ["add2virtualenv " + stagingDir, "add2virtualenv " + venv + "/" + site]))
  }

  /** Every successful plan for a missing project has the shape of a fresh
      checkout for the host's staging and virtualenv directories. */
  lemma ProvisionSteps(c: Conf, hostname: string, site: string)
    requires ProvisionPlan(c, hostname, site, false).Ok?
    ensures var settings := SiteSettings(c, hostname, site).value;
            var hostDict := HostDict(c, hostname).value;
            var plan := ProvisionPlan(c, hostname, site, false).value;
            && Get(hostDict, "code_dir").Str?
            && PercentS(Get(hostDict, "virtualenv_dir")).Ok?
            && ProjectDir(hostDict, site, settings).Ok?
            && ProvisionPlan(c, hostname, site, false) ==
               FreshCheckout(site, Get(hostDict, "code_dir").s + "/staging", PercentS(Get(hostDict, "virtualenv_dir")).value,
                             ProjectDir(hostDict, site, settings).value, settings)
  {
    var inputs := ResolveSetup(c, hostname, site).value;
  }

  /** The directory `git clone <url>` creates in the current directory:
      the URL's last path component without a `.git` suffix. */
  function CloneDir(url: string): string {
    var name := Basename(url);
    if |name| > 4 && name[|name| - 4..] == ".git" then name[..|name| - 4] else name
  }

  /** The project directory setup_virtualenv probes for is the directory
      `git clone` creates: the repository is named after the project. */
  predicate ClonesIntoProject(settings: map<string, Value>) {
    && PercentS(Get(settings, "clone_url")).Ok?
    && PercentS(Get(settings, "project_name")).Ok?
    && CloneDir(PercentS(Get(settings, "clone_url")).value) == PercentS(Get(settings, "project_name")).value
  }

  /** One setup_virtualenv pass for a site on a file system holding the
      paths `present`: the commands it runs and the paths present
      afterwards. The commands run after `cdvirtualenv`, in
      `<virtualenv_dir>/<site>`, so the clone creates
      `<virtualenv_dir>/<site>/<CloneDir(url)>`. */
  function Provision(c: Conf, hostname: string, site: string, present: set<string>): (r: Result<(seq<string>, set<string>)>)
    ensures ResolveSetup(c, hostname, site).Err? ==> r == Err(ResolveSetup(c, hostname, site).error)
    ensures ResolveSetup(c, hostname, site).Ok? && HostIsLocal(c, hostname).Err? ==> r == Err(HostIsLocal(c, hostname).error)
    ensures r.Ok? ==>
              && ResolveSetup(c, hostname, site).Ok?
              && HostIsLocal(c, hostname).Ok?
              && var inputs := ResolveSetup(c, hostname, site).value;
              && ProvisionPlan(c, hostname, site, inputs.projDir in present) == Ok(r.value.0)
              && present <= r.value.1
              && (inputs.projDir in present ==> r.value.1 == present)
              && (inputs.projDir !in present ==>
                    && PercentS(Get(inputs.settings, "clone_url")).Ok?
                    && r.value.1 == present + {inputs.venv + "/" + site + "/" + CloneDir(PercentS(Get(inputs.settings, "clone_url")).value)})
  {
    var inputs :- ResolveSetup(c, hostname, site);
    var _ :- HostIsLocal(c, hostname);
    if inputs.projDir in present then Ok(([], present))
    else
      var commands :- FreshCheckout(site, inputs.stagingDir, inputs.venv, inputs.projDir, inputs.settings);
      var url := PercentS(Get(inputs.settings, "clone_url")).value;
      Ok((commands, present + {inputs.venv + "/" + site + "/" + CloneDir(url)}))
  }

  /** When the repository is named after the project, a second
      setup_virtualenv pass finds the checkout the first one made and runs
      nothing. */
  lemma ProvisionTwiceClonesOnce(c: Conf, hostname: string, site: string, present: set<string>)
    requires Provision(c, hostname, site, present).Ok?
    requires SiteSettings(c, hostname, site).Ok? && ClonesIntoProject(SiteSettings(c, hostname, site).value)
    ensures var after := Provision(c, hostname, site, present).value.1;
            Provision(c, hostname, site, after) == Ok(([], after))
  {
    var inputs := ResolveSetup(c, hostname, site).value;
    var after := Provision(c, hostname, site, present).value.1;
    if inputs.projDir !in present {
      var url := PercentS(Get(inputs.settings, "clone_url")).value;
      assert inputs.projDir == inputs.venv + "/" + site + "/" + CloneDir(url);
      assert inputs.projDir in after;
    }
  }

  /** When the repository is not named after the project, the probe never
      finds the checkout: a second pass clones and sets up again, running
      the same commands. */
  lemma ProvisionClonesAgain(c: Conf, hostname: string, site: string, present: set<string>)
    requires Provision(c, hostname, site, present).Ok?
    requires ResolveSetup(c, hostname, site).value.projDir !in present
    requires !ClonesIntoProject(ResolveSetup(c, hostname, site).value.settings)
    ensures var first := Provision(c, hostname, site, present).value;
            && Provision(c, hostname, site, first.1).Ok?
            && Provision(c, hostname, site, first.1).value.0 == first.0
            && first.0 != []
  {
    var inputs := ResolveSetup(c, hostname, site).value;
    var url := PercentS(Get(inputs.settings, "clone_url")).value;
    var project := PercentS(Get(inputs.settings, "project_name")).value;
    assert inputs.projDir == inputs.venv + "/" + site + "/" + project;
    SuffixesDiffer(inputs.venv + "/" + site + "/", CloneDir(url), project);
    var first := Provision(c, hostname, site, present).value;
    assert inputs.projDir !in first.1;
    ProvisionWithoutProject(c, hostname, site, present, first.1);
  }

  /** Whichever other paths exist, a pass that does not find the project
      runs the same commands. */
  lemma ProvisionWithoutProject(c: Conf, hostname: string, site: string, present: set<string>, other: set<string>)
    requires Provision(c, hostname, site, present).Ok?
    requires ResolveSetup(c, hostname, site).value.projDir !in present
    requires ResolveSetup(c, hostname, site).value.projDir !in other
    ensures Provision(c, hostname, site, other).Ok?
    ensures Provision(c, hostname, site, other).value.0 == Provision(c, hostname, site, present).value.0
  {
  }

  /** stitch/fabfile.py's setup_virtualenv for one site, as written: when
      the project directory is missing it calls `git_clone(url)`, but that
      `git_clone` takes no argument, so the call raises TypeError before any
      command runs. */
  function PackageSetupVirtualenv(c: Conf, hostname: string, site: string, projectExists: bool): (r: Result<seq<string>>)
    ensures !projectExists ==> r.Err?
    ensures projectExists && r.Ok? ==> r.value == []
  {
    var hostDict :- HostDict(c, hostname);
    var _ :- PercentS(Get(hostDict, "virtualenv_dir"));
    var settings :- SiteSettings(c, hostname, site);
    var _ :- ProjectDir(hostDict, site, settings);
    if projectExists then Ok([]) else Err(TypeError)
  }

  /** On a site whose settings resolve and whose project is missing, the
      stitch/fabfile.py setup never provisions, while the root fabfile.py
      plan clones. */
  lemma PackageSetupNeverClones(c: Conf, hostname: string, site: string)
    requires ProvisionPlan(c, hostname, site, false).Ok?
    ensures PackageSetupVirtualenv(c, hostname, site, false) == Err(TypeError)
    ensures ProvisionPlan(c, hostname, site, false).value != []
  {
    var inputs := ResolveSetup(c, hostname, site).value;
  }
}

=== FILE: values.dfy ===
/** Values as the YAML loader hands them to the deployment scripts, and the
    handful of Python operations on them that configuration resolution uses:
    truthiness, `dict.get`, `in`, `'%s' %` formatting and path joining. */
module PyValues {

  /** A loaded configuration value. Mapping keys are strings. */
  datatype Value =
    | Null
    | Bool(b: bool)
    | Int(i: int)
    | Str(s: string)
    | List(items: seq<Value>)
    | Dict(m: map<string, Value>)

  /** The exceptions the resolution code can raise. */
  datatype Error =
    | KeyError     // `d[k]` on a missing key, including `hosts[None]`
    | TypeError    // TypeError or AttributeError: an operation on a value of the wrong kind
    | Unformatted  // `'%s' % v` of a list or mapping: Python's repr text is not modelled

  /** Success or the exception raised; failure-compatible for `:-`. */
  datatype Result<+T> = Ok(value: T) | Err(error: Error) {
    predicate IsFailure() {
      Err?
    }

    function PropagateFailure<U>(): Result<U>
      requires Err?
    {
      Err(error)
    }

    function Extract(): T
      requires Ok?
    {
      value
    }
  }

  datatype Option<+T> = None | Some(value: T)

  /** Python truthiness, as used by `if v:`. */
  predicate Truthy(v: Value) {
    match v
    case Null => false
    case Bool(b) => b
    case Int(i) => i != 0
    case Str(s) => s != ""
    case List(items) => items != []
    case Dict(m) => m != map[]
  }

  /** `m.get(k)`: the value under `k`, or None. */
  function Get(m: map<string, Value>, k: string): Value {
    if k in m then m[k] else Null
  }

  /** `m[k]`: the value under `k`, or KeyError. */
  function Index(m: map<string, Value>, k: string): Result<Value> {
    if k in m then Ok(m[k]) else Err(KeyError)
  }

  /** A Python string-or-None as a value. */
  function OptionValue(o: Option<string>): Value {
    match o
    case Some(s) => Str(s)
    case None => Null
  }

  predicate IsSubstring(t: string, s: string) {
    exists i, j | 0 <= i <= j <= |s| :: s[i..j] == t
  }

  /** `needle in container` for a needle that is a string or None. */
  function Contains(container: Value, needle: Option<string>): Result<bool> {
    match container
    case List(items) => Ok(OptionValue(needle) in items)
    case Dict(m) => Ok(needle.Some? && needle.value in m)
    case Str(s) =>
      if needle.Some? then Ok(IsSubstring(needle.value, s)) else Err(TypeError)
    case _ => Err(TypeError)
  }

  function DigitChar(d: nat): char
    requires d < 10
  {
    "0123456789"[d]
  }

  function NatString(n: nat): string
    decreases n
  {
    if n < 10 then [DigitChar(n)] else NatString(n / 10) + [DigitChar(n % 10)]
  }

  /** `'%s' % v`, that is `str(v)`, for the scalar values. */
  function PercentS(v: Value): Result<string> {
    match v
    case Null => Ok("None")
    case Bool(b) => Ok(if b then "True" else "False")
    case Int(i) => Ok(if i < 0 then "-" + NatString(-i) else NatString(i))
    case Str(s) => Ok(s)
    case _ => Err(Unformatted)
  }

  /** `posixpath.join(a, b)` for two strings. */
  function Join(a: string, b: string): string {
    if |b| > 0 && b[0] == '/' then b
    else if a == "" || a[|a| - 1] == '/' then a + b
    else a + "/" + b
  }

  /** `os.path.join(a, b)` on loaded values: anything but two strings raises. */
  function JoinValues(a: Value, b: Value): Result<string> {
    if a.Str? && b.Str? then Ok(Join(a.s, b.s)) else Err(TypeError)
  }

  /** `a + b` on loaded values, which the scripts only apply to strings. */
  function Concat(a: Value, b: Value): Result<string> {
    if a.Str? && b.Str? then Ok(a.s + b.s) else Err(TypeError)
  }

  /** `posixpath.basename`: the text after the last '/'. */
  function Basename(p: string): string
    decreases |p|
  {
    if p == [] then []
    else if p[|p| - 1] == '/' then []
    else Basename(p[..|p| - 1]) + [p[|p| - 1]]
  }

  /** The text before the last '/' (the directory part, without stripping repeated slashes). */
  function DirPart(p: string): string
    decreases |p|
  {
    if p == [] then []
    else if p[|p| - 1] == '/' then p[..|p| - 1]
    else DirPart(p[..|p| - 1])
  }

  /** Joining a directory with a plain file name can be undone by splitting at the last '/'. */
  lemma {:induction false} JoinSplits(a: string, b: string)
    requires a != "" && a[|a| - 1] != '/'
    requires '/' !in b
    ensures Basename(Join(a, b)) == b
    ensures DirPart(Join(a, b)) == a
    decreases |b|
  {
    if b == [] {
      assert Join(a, b) == a + "/";
      assert (a + "/")[..|a + "/"| - 1] == a;
    } else {
      var b' := b[..|b| - 1];
      assert b == b' + [b[|b| - 1]];
      assert '/' !in b' by {
        forall i | 0 <= i < |b'| ensures b'[i] != '/' {
          assert b'[i] == b[i];
        }
      }
      JoinSplits(a, b');
      assert b[0] != '/';
      if |b'| > 0 { assert b'[0] == b[0]; }
      assert Join(a, b) == Join(a, b') + [b[|b| - 1]];
      assert Join(a, b)[..|Join(a, b)| - 1] == Join(a, b');
    }
  }

  /** Strings that differ after a common prefix differ. */
  lemma SuffixesDiffer(prefix: string, a: string, b: string)
    requires a != b
    ensures prefix + a != prefix + b
  {
    assert (prefix + a)[|prefix|..] == a;
    assert (prefix + b)[|prefix|..] == b;
  }

  /** Strings that differ before a common suffix differ. */
  lemma PrefixesDiffer(a: string, b: string, suffix: string)
    requires a != b
    ensures a + suffix != b + suffix
  {
    if |a| == |b| {
      assert (a + suffix)[..|a|] == a;
      assert (b + suffix)[..|b|] == b;
    }
  }
}
